=== FILE: README.md ===
# GPU visibility batches, culler and instance buffer, in Dafny

This project models the CPU side of the GPU-driven visibility subsystem of the
Unity render-pipelines core package. It covers three files:

- **`GPUVisibilityBRG`, the batch table.** Batch handles index a growable table
  of batch slots, and a stack of free slots is read first on creation.
  Registering mesh renderers into a batch allocates one visibility instance per
  renderer from the instance pool. Destroying a batch frees them.
- **`GPUVisibilityCuller`.** It sizes the visible-cluster and visible-index
  outputs from a byte budget. It grows the active-instance buffer only when a
  frame needs more room. It records the two-pass culling command sequence
  (instance pass, then cluster pass), each pass zeroing its append counter first.
- **`GPUPipelineTests`.** The two editor tests state what the instance data
  buffer and the instance pool must do:
  - a 12-instance buffer with eight properties, in which every uploaded object
    reads back intact after one submit;
  - a five-slot pool driven through allocate/free rounds, which stays sane at
    every check.

The modules follow that structure:

| file | module | models |
|---|---|---|
| `wrappers.dfy` | `Wrappers` | `Option` and `Result` with early return (`:-`) |
| `instance_pool.dfy` | `InstancePool` | the visibility instance pool, as the tests and the batch table use it |
| `instance_batches.dfy` | `InstanceBatches` | `GPUVisibilityBRG`: batch handles, the batch table, create/register/destroy |
| `visibility_culler.dfy` | `VisibilityCuller` | `GPUVisibilityCuller`: sizing, buffer growth, the cull command trace |
| `instance_data_buffer.dfy` | `InstanceDataBuffer` | buffer layout, uploader, read-back and `LoadData` |
| `pipeline_tests.dfy` | `PipelineTests` | `TestBigInstanceBuffer` and `TestInstancePool` as theorems |

State is immutable. Each operation is a function of the old state. The
operations that can fail return a `Result` holding the new state or the error
the code raises; the culler's operations, `SubmitToGpu` and `Readback` cannot
fail and return plain values. The exception
"Batch handle is invalid" and the list indexer's out-of-range exception are
error values. In the batch table, Unity's `Assert.IsTrue` logs and goes on, so
it is a flag (`assertionsHeld`) in the result.

GPU work is a list of commands (`Cmd`). A small abstract GPU (`Gpu`, `Step`,
`Run`) reads and writes the two append counters and the two indirect-argument
buffers. A command fails (`None`) when it reads a counter that was not zeroed
this frame. The compute kernels' code is not part of this model. Each kernel
is taken at the bound its parameters give it. The instance kernel reads
`_TotalInstanceCount` ids from the bound active buffer and appends at most one
entry per id. The cluster kernel appends nothing past `_MaxOutputClusterOffset`.
The arguments kernel clamps the count it reads to `_MaxCounterValue`.

The batch table invariant `InstanceBatches.Inv` says four things. The first
three form `InstanceBatches.Consistent`:
- the pool passes its own sanity check;
- no pool slot belongs to two batches, or twice to one;
- the slots held by batches are exactly the live pool slots;
- as the code is written, the free-slot stack stays empty.

With the corrected destroy of the Findings, `InstanceBatches.RecyclingInv`
replaces the last point. Every slot on the free-slot stack names a distinct
batch that is invalid and empty. Create, register into a valid batch, and the
corrected destroy all keep it.

Two points of the code shape the model:
- `CreateInstanceBatch` reads `m_FreeBatchSlots`, but nothing ever pushes onto
  it (see Findings).
- Registration registers no geometry, so no renderer is skipped. Every
  renderer gets a pool instance.

## Model

| member | source | states |
|---|---|---|
| InstanceBatches.IsValid | com.unity.render-pipelines.core/Runtime/GPUVisibilityBRG/GPUVisibilityBRG.cs:13-14 | a handle is valid exactly when it is not the invalid handle (index -1) |
| InstanceBatches.HandleEquals | com.unity.render-pipelines.core/Runtime/GPUVisibilityBRG/GPUVisibilityBRG.cs:15 | comparing handles by index is the same as equality of handles |
| InstanceBatches.Initialize | com.unity.render-pipelines.core/Runtime/GPUVisibilityBRG/GPUVisibilityBRG.cs:50-55 | a new table has no batches and an empty pool of `maxEntities` slots, and satisfies the table invariant |
| InstanceBatches.CreateInstanceBatch | com.unity.render-pipelines.core/Runtime/GPUVisibilityBRG/GPUVisibilityBRG.cs:61-83 | with no free slot, the new handle is the old table length and the table grows by one with the old batches kept. Otherwise the handle is the top of the free-slot stack, which is popped. The slot becomes valid, no other batch and not the pool changes, and under the invariant both slot assertions hold and the invariant is kept |
| InstanceBatches.RegisterGameObjectInstances | com.unity.render-pipelines.core/Runtime/GPUVisibilityBRG/GPUVisibilityBRG.cs:85-168 | an invalid or past-the-end handle throws. An empty renderer list returns unchanged. A handle below -1 with a non-empty list fails with `IndexOutOfRange`, whatever the room. For an in-range handle and a non-empty list it succeeds exactly when the pool has room for every renderer. The batch then gains one fresh, previously non-live pool instance per renderer, in order, each recording that renderer's transform and probe use. Every instance live before keeps its entity and the pool's capacity is unchanged; no other batch changes; the invariant is kept |
| InstanceBatches.AddedAreFresh | com.unity.render-pipelines.core/Runtime/GPUVisibilityBRG/GPUVisibilityBRG.cs:119-128 | every instance the allocation loop hands out was not live before, is live after, and records its renderer |
| InstanceBatches.DestroyInstanceBatch | com.unity.render-pipelines.core/Runtime/GPUVisibilityBRG/GPUVisibilityBRG.cs:177-193 | an invalid or past-the-end handle throws. Otherwise the batch becomes invalid and empty, exactly its instances leave the live set and are pushed on the pool's free stack in order, other batches, the free-slot stack and the pool's capacity and high-water mark are unchanged, and the invariant is kept |
| InstanceBatches.DestroyFreesAll | com.unity.render-pipelines.core/Runtime/GPUVisibilityBRG/GPUVisibilityBRG.cs:185-189 | under the invariant, freeing every instance of a batch never hits a non-live or repeated slot |
| InstanceBatches.CreateBatchFromGameObjectInstances | com.unity.render-pipelines.core/Runtime/GPUVisibilityBRG/GPUVisibilityBRG.cs:170-175 | succeeds exactly when the pool has room for all renderers. The result is one new valid batch appended after the untouched old ones. It holds one fresh pool instance per renderer, each recording that renderer. Every instance live before keeps its entity, the pool's capacity is unchanged, and the invariant is kept |
| InstanceBatches.CreateThenRegister | com.unity.render-pipelines.core/Runtime/GPUVisibilityBRG/GPUVisibilityBRG.cs:170-175 | registering into the batch just created fails only for lack of pool room, and otherwise yields the grown table |
| InstanceBatches.DestroyThenCreateGrowsTable | com.unity.render-pipelines.core/Runtime/GPUVisibilityBRG/GPUVisibilityBRG.cs:177-193 | as written, creating after any destroy appends a new slot with a different handle, and the table grows |
| InstanceBatches.CreateDestroyCreateScenario | com.unity.render-pipelines.core/Runtime/GPUVisibilityBRG/GPUVisibilityBRG.cs:61-73 | create, destroy, create hands out handles 0 then 1 and leaves slot 0 invalid in a table of two |
| InstanceBatches.DestroyAndRecycle | com.unity.render-pipelines.core/Runtime/GPUVisibilityBRG/GPUVisibilityBRG.cs:177-193 | the corrected destroy: a bad handle fails as in the as-written destroy, and an already-destroyed batch is refused. It succeeds on every valid batch under the invariant. On success the result is exactly the as-written destroy's, so the batch is invalid and empty and its instances leave the live set, with the slot pushed onto the free-slot stack |
| InstanceBatches.CreateKeepsRecyclingInv | com.unity.render-pipelines.core/Runtime/GPUVisibilityBRG/GPUVisibilityBRG.cs:61-83 | with recycling, creation succeeds, both slot assertions hold (a recycled slot is invalid and empty), and the recycling invariant is kept |
| InstanceBatches.DestroyAndRecycleKeepsInv | com.unity.render-pipelines.core/Runtime/GPUVisibilityBRG/GPUVisibilityBRG.cs:177-193 | with recycling, destroying a valid batch succeeds and keeps the recycling invariant: the slot joins the stack once, invalid and empty |
| InstanceBatches.RegisterKeepsRecyclingInv | com.unity.render-pipelines.core/Runtime/GPUVisibilityBRG/GPUVisibilityBRG.cs:85-168 | with recycling, a successful registration into a valid batch keeps the recycling invariant and touches no free slot |
| InstanceBatches.RecycledSlotIsReused | com.unity.render-pipelines.core/Runtime/GPUVisibilityBRG/GPUVisibilityBRG.cs:64-73 | with the corrected destroy, the next creation returns the destroyed handle, valid and empty, with both assertions holding and no growth |
| VisibilityCuller.SizePerCluster | com.unity.render-pipelines.core/Runtime/GPUVisibilityBRG/GPUVisibilityCuller.cs:104-109 | the per-cluster size is what makes the outputs add up: for every cluster count `c`, the `c` cluster indices plus the `c * P` primitive indices (4 bytes each) take exactly `c` times the size |
| VisibilityCuller.ClusterOutputCount | com.unity.render-pipelines.core/Runtime/GPUVisibilityBRG/GPUVisibilityCuller.cs:106 | the cluster count is the largest number of whole clusters that fit in the byte budget |
| VisibilityCuller.Initialize | com.unity.render-pipelines.core/Runtime/GPUVisibilityBRG/GPUVisibilityCuller.cs:80-115 | no active instances, a 2048-entry active buffer, as many clusters as fit in the budget (one more would not), one index slot per cluster primitive, and cluster plus index outputs together within the budget |
| VisibilityCuller.ResizeActiveInstanceBuffer | com.unity.render-pipelines.core/Runtime/GPUVisibilityBRG/GPUVisibilityCuller.cs:125-136 | reallocates exactly when there is no buffer or the length exceeds capacity, and then the capacity is the length. Otherwise nothing changes. Capacity never shrinks and always covers the length |
| VisibilityCuller.UpdateActiveInstanceBuffer | com.unity.render-pipelines.core/Runtime/GPUVisibilityBRG/GPUVisibilityCuller.cs:138-143 | the active ids become the frame's ids and their count fits the capacity. The buffer is reallocated exactly when the frame does not fit, and cluster sizing is untouched |
| VisibilityCuller.CapacityIsRunningMaximum | com.unity.render-pipelines.core/Runtime/GPUVisibilityBRG/GPUVisibilityCuller.cs:125-143 | after any sequence of frames the capacity is the largest frame length seen, or the starting capacity if larger |
| VisibilityCuller.SmallFramesKeepInitialBuffer | com.unity.render-pipelines.core/Runtime/GPUVisibilityBRG/GPUVisibilityCuller.cs:94 | after initialisation, a frame of at most 2048 instances never reallocates |
| VisibilityCuller.GroupCount | com.unity.render-pipelines.core/Runtime/GPUVisibilityBRG/GPUVisibilityCuller.cs:162 | 64-thread groups cover every active instance with fewer than one group to spare |
| VisibilityCuller.GPUCull | com.unity.render-pipelines.core/Runtime/GPUVisibilityBRG/GPUVisibilityCuller.cs:145-191 | returns false and records nothing exactly when there are no active instances. Otherwise it records six commands whose instance dispatch covers every active instance |
| VisibilityCuller.InitializedCullerRecordsNothing | com.unity.render-pipelines.core/Runtime/GPUVisibilityBRG/GPUVisibilityCuller.cs:92 | a culler just initialised has no active instances, so it culls nothing |
| VisibilityCuller.CullTraceIsWellOrdered | com.unity.render-pipelines.core/Runtime/GPUVisibilityBRG/GPUVisibilityCuller.cs:153-187 | whatever the previous frame left on the GPU, the recorded trace runs. The instance kernel reads exactly the active ids of the current active-buffer allocation. At most the active count of instances and at most the cluster output count of clusters become visible. The cluster arguments end up clamped to the active count, and the index arguments end up clamped to the cluster output count |
| VisibilityCuller.CullStaysWithinBudget | com.unity.render-pipelines.core/Runtime/GPUVisibilityBRG/GPUVisibilityCuller.cs:80-115 | after `Initialize` and any sequence of frame uploads, a pass over a non-empty frame reads exactly that frame's ids. The clusters it can make visible fit the byte budget the output buffers were sized from |
| VisibilityCuller.UpdateAllKeepsSizing | com.unity.render-pipelines.core/Runtime/GPUVisibilityBRG/GPUVisibilityCuller.cs:138-143 | frame uploads never change the cluster and index output sizes. After them the active ids are the last frame's |
| VisibilityCuller.InstanceCounterMustBeZeroed | com.unity.render-pipelines.core/Runtime/GPUVisibilityBRG/GPUVisibilityCuller.cs:154 | without the instance counter reset, a stale counter makes the trace fail |
| VisibilityCuller.ClustersCounterMustBeZeroed | com.unity.render-pipelines.core/Runtime/GPUVisibilityBRG/GPUVisibilityCuller.cs:175 | without the cluster counter reset, last frame's count makes the trace fail |
| InstanceDataBuffer.Build | com.unity.render-pipelines.core/Tests/Editor/GPUPipelineTests.cs:35-49 | building succeeds exactly when property ids are distinct. Properties are then packed in order, each at the packed size of those before it |
| InstanceDataBuffer.GetPropertyIndex | com.unity.render-pipelines.core/Tests/Editor/GPUPipelineTests.cs:76 | returns the first index holding the id, or -1 exactly when no property has it |
| InstanceDataBuffer.ComponentInBounds | com.unity.render-pipelines.core/Tests/Editor/GPUPipelineTests.cs:78-79 | every property slot of every instance lies inside the buffer |
| InstanceDataBuffer.ComponentsDisjoint | com.unity.render-pipelines.core/Tests/Editor/GPUPipelineTests.cs:78-79 | two different slots never share a byte, whether they differ in property or instance |
| InstanceDataBuffer.AddressAligned | com.unity.render-pipelines.core/Tests/Editor/GPUPipelineTests.cs:79 | with whole-vector property sizes, every slot address and the buffer size are multiples of 16 |
| InstanceDataBuffer.NewUploader | com.unity.render-pipelines.core/Tests/Editor/GPUPipelineTests.cs:175 | a new uploader targets the given buffer with nothing queued, and is valid for a well-formed buffer |
| InstanceDataBuffer.AllocateInstance | com.unity.render-pipelines.core/Tests/Editor/GPUPipelineTests.cs:117 | a write handle is given exactly for an instance id inside the buffer |
| InstanceDataBuffer.WriteParameter | com.unity.render-pipelines.core/Tests/Editor/GPUPipelineTests.cs:118-120 | a write is queued, after the earlier ones, exactly when the property exists and the value has its size |
| InstanceDataBuffer.SubmitToGpu | com.unity.render-pipelines.core/Tests/Editor/GPUPipelineTests.cs:187 | the queue empties, and every slot holds the last value queued for it, or keeps its old bytes if none was |
| InstanceDataBuffer.ApplyReadsLastWrite | com.unity.render-pipelines.core/Tests/Editor/GPUPipelineTests.cs:175-188 | applying writes in order leaves each slot with the last value written to it |
| InstanceDataBuffer.Readback | com.unity.render-pipelines.core/Tests/Editor/GPUPipelineTests.cs:56-71 | the CPU copy is the buffer's prefix of whole 16-byte vectors; for a buffer built from whole-vector properties it is the whole buffer, with no byte dropped |
| InstanceDataBuffer.DivTrunc | com.unity.render-pipelines.core/Tests/Editor/GPUPipelineTests.cs:79 | integer division rounds toward zero, as C# does: for negative `a` the quotient is the non-positive `q` with `a <= q*d < a + d`, for non-negative `a` the usual floor |
| InstanceDataBuffer.LoadData | com.unity.render-pipelines.core/Tests/Editor/GPUPipelineTests.cs:73-87 | fails with `PropertyMissing` exactly when no property has the id, and with `NotPerInstance` exactly when the first property with the id is shared. `ReadOutOfBounds` is returned exactly when that property is per-instance but the read starts before the array or runs past its end; every other call succeeds. The result is the requested number of bytes starting at vector `v = (address + byteSize * instanceId) / 16`, the division truncated as in C# |
| InstanceDataBuffer.LoadDataReadsSlot | com.unity.render-pipelines.core/Tests/Editor/GPUPipelineTests.cs:73-87 | with whole-vector sizes, loading a per-instance property reads back exactly that instance's slot |
| PipelineTests.TestSchema | com.unity.render-pipelines.core/Tests/Editor/GPUPipelineTests.cs:23-46 | eight properties carrying the given ids, all whole-vector sized and with distinct ids when the engine's ids are |
| PipelineTests.ConstructTestInstanceBuffer | com.unity.render-pipelines.core/Tests/Editor/GPUPipelineTests.cs:35-49 | the builder accepts the test schema and yields a well-formed buffer of the requested instance count |
| PipelineTests.TestLayout | com.unity.render-pipelines.core/Tests/Editor/GPUPipelineTests.cs:35-49 | with 12 instances the eight properties sit at 0, 16, 208, 784, 1360, 1376, 1392 and 1968, in a 2160-byte buffer |
| PipelineTests.PropertiesOf | com.unity.render-pipelines.core/Tests/Editor/GPUPipelineTests.cs:101-106 | the property lookups find the colour and both matrices at their schema positions |
| PipelineTests.FindsOwnIndex | com.unity.render-pipelines.core/Tests/Editor/GPUPipelineTests.cs:101-106 | with distinct ids, looking up a property's id returns its own index |
| PipelineTests.Upload | com.unity.render-pipelines.core/Tests/Editor/GPUPipelineTests.cs:115-121 | succeeds exactly when the instance exists and all three values fit their properties, and then queues the three writes of that instance, at the three given property indices, in order |
| PipelineTests.Download | com.unity.render-pipelines.core/Tests/Editor/GPUPipelineTests.cs:123-128 | a successful download yields a colour of one vector and two matrices of three vectors |
| PipelineTests.UploadAllQueues | com.unity.render-pipelines.core/Tests/Editor/GPUPipelineTests.cs:175-186 | uploading every placement succeeds and queues each object's three writes in placement order |
| PipelineTests.LastWriteIsPlacedObject | com.unity.render-pipelines.core/Tests/Editor/GPUPipelineTests.cs:175-186 | the last write to a placed instance's colour or matrix is the value of the object placed there |
| PipelineTests.RoundTrip | com.unity.render-pipelines.core/Tests/Editor/GPUPipelineTests.cs:137-222 | upload, one submit and read-back return, for every placed instance, exactly the object uploaded to it, whatever the buffer held before |
| PipelineTests.ReadsField | com.unity.render-pipelines.core/Tests/Editor/GPUPipelineTests.cs:191-217 | each of the three properties reads back the placed object's field |
| PipelineTests.TestBigInstanceBuffer | com.unity.render-pipelines.core/Tests/Editor/GPUPipelineTests.cs:137-222 | object A on instances 0, 1, 3, 4 and object B on 2, 5, 8, 11 of a 12-instance buffer each download their own object |
| PipelineTests.TestInstancePool | com.unity.render-pipelines.core/Tests/Editor/GPUPipelineTests.cs:224-260 | the scenario hands out slots 0, 1, 2, 1, 3, 4, 0. The pool is sane at all five checks, full after the second round, and the free stack reads 1, 4, 0 before the last allocation |
| PipelineTests.AllocateFirstThree | com.unity.render-pipelines.core/Tests/Editor/GPUPipelineTests.cs:227-236 | a fresh pool of five hands out slots 0, 1 and 2 and stays sane |
| PipelineTests.FreeOne | com.unity.render-pipelines.core/Tests/Editor/GPUPipelineTests.cs:238-240 | freeing slot 1 puts it alone on the free stack and removes it from the live set |
| PipelineTests.AllocateUntilFull | com.unity.render-pipelines.core/Tests/Editor/GPUPipelineTests.cs:242-246 | the freed slot 1 is handed out first, then the fresh slots 3 and 4, and the pool is full |
| PipelineTests.FreeThree | com.unity.render-pipelines.core/Tests/Editor/GPUPipelineTests.cs:248-252 | freeing three distinct live slots pushes them in order and removes exactly them from the live set |
| PipelineTests.AllocateFromFreed | com.unity.render-pipelines.core/Tests/Editor/GPUPipelineTests.cs:254-256 | the next allocation takes the slot freed last (0) and pops it |
| InstancePool.Initialize | com.unity.render-pipelines.core/Tests/Editor/GPUPipelineTests.cs:227-228 | an initialised pool is sane, empty and has the requested capacity |
| InstancePool.Allocate | com.unity.render-pipelines.core/Tests/Editor/GPUPipelineTests.cs:232-234 | succeeds exactly when a freed slot or a never-used slot remains. It pops the most recently freed slot first, otherwise takes the next fresh one; the slot was not live, now records the entity, and sanity is kept |
| InstancePool.AllocateFailsIffFull | com.unity.render-pipelines.core/Tests/Editor/GPUPipelineTests.cs:242-246 | on a sane pool, allocation fails exactly when every slot is live |
| InstancePool.LiveBound | com.unity.render-pipelines.core/Tests/Editor/GPUPipelineTests.cs:236 | a sane pool never has more live slots than its high-water mark or capacity |
| InstancePool.Free | com.unity.render-pipelines.core/Tests/Editor/GPUPipelineTests.cs:238 | succeeds exactly on a live slot, which leaves the live set and is pushed on the free stack, keeping sanity |
| InstancePool.AllocateMany | com.unity.render-pipelines.core/Runtime/GPUVisibilityBRG/GPUVisibilityBRG.cs:119-128 | allocating one slot per entity succeeds exactly when they all fit, and gives distinct, previously non-live slots recording the entities in order |
| InstancePool.AllocatedKeepsLive | com.unity.render-pipelines.core/Runtime/GPUVisibilityBRG/GPUVisibilityBRG.cs:119-128 | allocation only adds: every slot live before keeps its entity |
| InstancePool.FreeMany | com.unity.render-pipelines.core/Runtime/GPUVisibilityBRG/GPUVisibilityBRG.cs:185-189 | freeing a list succeeds exactly when it names distinct live slots, removing exactly them and pushing them in order |

## Left out

- Lightmap remapping, light-probe and spherical-harmonics interpolation, and the matrix conversion inside `RegisterGameObjectInstances` are float numerics over engine services. The per-instance uploader writes there are not modelled. The batch only records that lightmap data exists (`validLightMaps`).
- `GraphicsBuffer` allocation and release, `SetData`, bindings, and compute dispatch are GPU I/O. They appear only as the abstract commands of the cull trace. The active buffer's reallocation is a `generation` counter.
- The compute kernels' shader code is not part of this model. `Step` takes each kernel at the bound its parameters give it; it does not model which instances or clusters pass the visibility test.
- The asynchronous GPU read-back request is GPU I/O. `Readback` is a pure copy of the buffer contents.
- Leaked buffers, `Dispose`, `LoadShaders`, the empty `OnPerformCulling` and `Update` bodies, and geometry-pool resource binding are resource plumbing with no behaviour.
- The pool (`GPUVisibilityInstancePool`), the buffer builder and the uploader are modelled from what the tests and the batch table need of them:
  - the pool's free stack is last in, first out;
  - the builder packs properties in order;
  - the uploader applies writes in order.
- Float values are raw bytes, and the model compares them byte for byte. The test's `Equals` compares each float with `==`. The two agree except on NaN (same bytes, yet not equal) and on the two zeros (different bytes, yet equal). The test's values include no NaN and no -0.0f.
- Shader property ids (`Shader.PropertyToID`) and the cluster primitive count (`GeometryPoolConstants.GeoPoolClusterPrimitiveCount`) come from engine code that is not part of this model. They are parameters.
- VisibilityCuller.GroupCount: 32-bit overflow of `m_ActiveInstanceCount + 63` is not modelled, because counts are unbounded naturals. The same holds for the byte budget and the buffer sizes.
- VisibilityCuller.Initialize: the byte budget is a natural number. In the source it is a C# `int`, and a negative budget would give a negative cluster count, so creating the buffers would fail. That case is not modelled.
- InstanceDataBuffer.LoadData: the source reads through an unchecked pointer (GPUPipelineTests.cs lines 81-85), so a read outside the array is undefined there. The model turns it into the `ReadOutOfBounds` error. The test file's `Assert.IsTrue` on line 77 is NUnit's, which throws; that is the `NotPerInstance` error.
- Registration's renderer side effects are not modelled: setting `forceRenderingOff` on each renderer (GPUVisibilityBRG.cs line 123). Neither is the mesh-filter `Assert.IsTrue` on line 124, which logs and continues; unlike the two assertions in `CreateInstanceBatch`, it leaves no `assertionsHeld` flag.
- InstanceBatches.RegisterGameObjectInstances: the model assumes that allocating past the pool's `maxEntities` fails. The batch table does not check the handle it gets back (GPUVisibilityBRG.cs lines 127-128), so what the pool really does there is outside the model. The model fails the whole call before changing anything; partial allocation is not modelled.
- InstanceBatches.CreateBatchFromGameObjectInstances: when registration fails, the source keeps the batch that `CreateInstanceBatch` already created (lines 170-175). The model returns a bare `Failure` and drops that batch.
- InstanceBatches.Inv: it includes an empty free-slot stack. The code as written never fills that stack, so this holds in every reachable state.

## Findings

| source | as written | input that shows it | evidently intended | confidence | as-written member | corrected member |
|---|---|---|---|---|---|---|
| com.unity.render-pipelines.core/Runtime/GPUVisibilityBRG/GPUVisibilityBRG.cs:177-193 | `DestroyInstanceBatch` marks the slot invalid but never pushes it onto `m_FreeBatchSlots`, so `CreateInstanceBatch` always appends and destroyed slots are never reused | on an empty table: create (handle 0), destroy handle 0, create: the second handle is 1 and the table holds two slots, the first one dead | the destroyed slot goes onto the free-slot stack, and the next creation hands it back | not executed | InstanceBatches.DestroyThenCreateGrowsTable | InstanceBatches.RecycledSlotIsReused |

=== FILE: instance_batches.dfy ===
/** The instance-batch table of the GPU visibility renderer group: a growable
    table of batch slots, each holding the pool instances registered into it,
    and a stack of free slots that creation reads first.

    The table as written never pushes onto that stack: destroying a batch
    leaves its slot invalid and empty, but creation keeps appending. `Inv`
    records this (`freeSlots == []`), and `DestroyThenCreateGrowsTable` shows
    it; `DestroyAndRecycle` is the destroy that hands the slot back, and
    `RecyclingInv` is the invariant the table keeps once slots are recycled. */
module InstanceBatches {
  import opened Wrappers
  import InstancePool

  type Instance = InstancePool.Instance

  /** A batch handle is an index into the table; -1 is the invalid handle. */
  datatype BatchHandle = BatchHandle(index: int)

  const InvalidBatch: BatchHandle := BatchHandle(-1)

  function IsValid(h: BatchHandle): (r: bool)
    ensures r <==> h != InvalidBatch
  {
    h.index != -1
  }

  /** Handle equality compares indices only. */
  function HandleEquals(a: BatchHandle, b: BatchHandle): (r: bool)
    ensures r <==> a == b
  {
    a.index == b.index
  }

  /** The part of a mesh renderer the pool records: its transform and whether
      it blends light probes. */
  datatype MeshRenderer = MeshRenderer(transform: nat, blendProbes: bool)

  function EntityOf(m: MeshRenderer): InstancePool.Entity {
    InstancePool.Entity(m.transform, m.blendProbes)
  }

  function Entities(rs: seq<MeshRenderer>): (es: seq<InstancePool.Entity>)
    ensures |es| == |rs|
    ensures forall k :: 0 <= k < |rs| ==> es[k] == EntityOf(rs[k])
  {
    seq(|rs|, k requires 0 <= k < |rs| => EntityOf(rs[k]))
  }

  /** One slot of the table. `validLightMaps` records that lightmap data was
      generated for it; the lightmaps themselves are not modelled. */
  datatype BatchData = BatchData(isValid: bool, instances: seq<Instance>, validLightMaps: bool)

  const NewBatch: BatchData := BatchData(false, [], false)

  datatype Brg = Brg(batches: seq<BatchData>, freeSlots: seq<BatchHandle>, pool: InstancePool.Pool)

  /** `HandleInvalid` is the "Batch handle is invalid" exception; `IndexOutOfRange`
      is the table indexer's exception for a negative index the guard let through. */
  datatype BrgError = HandleInvalid | IndexOutOfRange | PoolFailure(cause: InstancePool.PoolError)

  /** Every pool slot held by some batch of `bs`. */
  function Held(bs: seq<BatchData>): set<int> {
    if bs == [] then {} else Held(bs[..|bs| - 1]) + InstancePool.Indices(bs[|bs| - 1].instances)
  }

  /** No pool slot is held twice, within one batch or by two batches. */
  predicate Exclusive(bs: seq<BatchData>) {
    bs == [] ||
    (&& Exclusive(bs[..|bs| - 1])
     && InstancePool.Distinct(bs[|bs| - 1].instances)
     && Held(bs[..|bs| - 1]) !! InstancePool.Indices(bs[|bs| - 1].instances))
  }

  /** The pool is sane and every live pool slot belongs to exactly one batch. */
  ghost predicate Consistent(t: Brg) {
    && InstancePool.SanityCheck(t.pool)
    && Exclusive(t.batches)
    && Held(t.batches) == t.pool.live.Keys
  }

  /** The table invariant as written: consistent, and the free-slot stack
      stays empty. */
  ghost predicate Inv(t: Brg) {
    && t.freeSlots == []
    && Consistent(t)
  }

  function Initialize(maxEntities: nat): (t: Brg)
    ensures Inv(t)
    ensures |t.batches| == 0 && t.pool.capacity == maxEntities && |t.pool.live| == 0
  {
    Brg([], [], InstancePool.Initialize(maxEntities))
  }

  /** A created batch, and whether the two slot checks creation asserts
      (the slot was invalid, and its instance list was empty) held. A failed
      check is logged and creation goes on. */
  datatype Created = Created(state: Brg, handle: BatchHandle, assertionsHeld: bool)

  function Activate(t: Brg, h: BatchHandle): Created
    requires 0 <= h.index < |t.batches|
  {
    var b := t.batches[h.index];
    Created(t.(batches := t.batches[h.index := b.(isValid := true)]), h,
            !b.isValid && |b.instances| == 0)
  }

  /** Hands out a batch slot: the top of the free-slot stack if there is one,
      else a new slot appended to the table. */
  function CreateInstanceBatch(t: Brg): (r: Result<Created, BrgError>)
    ensures |t.freeSlots| == 0 ==>
      && r.Success?
      && r.value.handle.index == |t.batches|
      && |r.value.state.batches| == |t.batches| + 1
      && r.value.state.batches[..|t.batches|] == t.batches
      && r.value.state.freeSlots == []
    ensures |t.freeSlots| > 0 && r.Success? ==>
      && r.value.handle == t.freeSlots[|t.freeSlots| - 1]
      && r.value.state.freeSlots == t.freeSlots[..|t.freeSlots| - 1]
      && |r.value.state.batches| == |t.batches|
    ensures r.Success? ==>
      var (s, h) := (r.value.state, r.value.handle);
      && IsValid(h)
      && 0 <= h.index < |s.batches|
      && s.batches[h.index].isValid
      && (r.value.assertionsHeld ==> s.batches[h.index].instances == [])
      && (forall b :: 0 <= b < |t.batches| && b != h.index ==> s.batches[b] == t.batches[b])
      && s.pool == t.pool
    ensures Inv(t) ==> r.Success? && r.value.assertionsHeld && Inv(r.value.state)
  {
    if |t.freeSlots| == 0 then
      var t1 := t.(batches := t.batches + [NewBatch]);
      var c := Activate(t1, BatchHandle(|t.batches|));
      AppendPreservesHeld(t.batches, NewBatch);
      assert c.state.batches == t.batches + [c.state.batches[|t.batches|]];
      AppendPreservesHeld(t.batches, c.state.batches[|t.batches|]);
      Success(c)
    else
      var h := t.freeSlots[|t.freeSlots| - 1];
      var t1 := t.(freeSlots := t.freeSlots[..|t.freeSlots| - 1]);
      if 0 <= h.index < |t1.batches| then Success(Activate(t1, h)) else Failure(IndexOutOfRange)
  }

  /** Appends one pool instance per renderer, in renderer order, to the batch
      of `h`, all or nothing. An empty renderer list returns before the handle
      is used as an index, so a handle below -1 only fails for a non-empty list. */
  function RegisterGameObjectInstances(t: Brg, h: BatchHandle, renderers: seq<MeshRenderer>): (r: Result<Brg, BrgError>)
    requires InstancePool.SanityCheck(t.pool)
    ensures !IsValid(h) || h.index >= |t.batches| ==> r == Failure(HandleInvalid)
    ensures IsValid(h) && h.index < |t.batches| && |renderers| == 0 ==> r == Success(t)
    ensures IsValid(h) && h.index < 0 && |renderers| > 0 ==> r == Failure(IndexOutOfRange)
    ensures 0 <= h.index < |t.batches| && |renderers| > 0 ==>
      (r.Success? <==> |t.pool.live| + |renderers| <= t.pool.capacity)
    ensures r.Success? && |renderers| > 0 ==> AppendedInto(t, h.index, renderers, r.value)
    ensures Consistent(t) && r.Success? ==> Consistent(r.value)
    ensures Inv(t) && r.Success? ==> Inv(r.value)
  {
    if !IsValid(h) || h.index >= |t.batches| then
      Failure(HandleInvalid)
    else if |renderers| == 0 then
      Success(t)
    else if h.index < 0 then
      Failure(IndexOutOfRange)
    else
      var es := Entities(renderers);
      match InstancePool.AllocateMany(t.pool, es)
      case Failure(e) => Failure(PoolFailure(e))
      case Success((pool, added)) =>
        AppendFacts(t, h.index, renderers, pool, added);
        RegisterKeepsInv(t, h.index, es, pool, added);
        Success(AppendToBatch(t, h.index, pool, added))
  }

  /** The table after `added` joined the batch at `i` and the pool became `pool`. */
  function AppendToBatch(t: Brg, i: int, pool: InstancePool.Pool, added: seq<Instance>): Brg
    requires 0 <= i < |t.batches|
  {
    var b := t.batches[i];
    t.(pool := pool, batches := t.batches[i := b.(validLightMaps := true, instances := b.instances + added)])
  }

  /** `s` is `t` after the batch at `i` received one fresh pool instance per
      renderer, in order, each mapped to that renderer, nothing else joined
      the pool, and every instance live before keeps its entity. */
  ghost predicate RegisteredInto(t: Brg, i: int, renderers: seq<MeshRenderer>, s: Brg)
    requires 0 <= i < |t.batches| && i < |s.batches|
  {
    var old_ := t.batches[i].instances;
    var new_ := s.batches[i].instances;
    && |new_| == |old_| + |renderers|
    && new_[..|old_|] == old_
    && (forall k :: 0 <= k < |renderers| ==>
          && new_[|old_| + k].index !in t.pool.live
          && new_[|old_| + k].index in s.pool.live
          && s.pool.live[new_[|old_| + k].index] == EntityOf(renderers[k]))
    && |s.pool.live| == |t.pool.live| + |renderers|
    && s.pool.capacity == t.pool.capacity
    && (forall k :: k in t.pool.live ==> k in s.pool.live && s.pool.live[k] == t.pool.live[k])
  }

  /** `s` is `t` after renderers joined the batch at `i`: that batch keeps
      its validity, records that it has lightmap data and gains the new
      instances; every other batch and the free-slot stack are untouched. */
  ghost predicate AppendedInto(t: Brg, i: int, renderers: seq<MeshRenderer>, s: Brg) {
    && 0 <= i < |t.batches| == |s.batches|
    && (forall b :: 0 <= b < |t.batches| && b != i ==> s.batches[b] == t.batches[b])
    && s.batches[i].isValid == t.batches[i].isValid
    && s.batches[i].validLightMaps
    && RegisteredInto(t, i, renderers, s)
    && s.freeSlots == t.freeSlots
  }

  lemma AppendFacts(t: Brg, i: int, renderers: seq<MeshRenderer>, pool: InstancePool.Pool, added: seq<Instance>)
    requires 0 <= i < |t.batches|
    requires InstancePool.AllocatedFrom(t.pool, Entities(renderers), pool, added)
    ensures AppendedInto(t, i, renderers, AppendToBatch(t, i, pool, added))
  {
    RegisterFacts(t, i, renderers, pool, added);
  }

  lemma RegisterFacts(t: Brg, i: int, renderers: seq<MeshRenderer>, pool: InstancePool.Pool, added: seq<Instance>)
    requires 0 <= i < |t.batches|
    requires InstancePool.AllocatedFrom(t.pool, Entities(renderers), pool, added)
    ensures RegisteredInto(t, i, renderers, AppendToBatch(t, i, pool, added))
  {
    var es := Entities(renderers);
    var old_ := t.batches[i].instances;
    var new_ := old_ + added;
    assert AppendToBatch(t, i, pool, added).batches[i].instances == new_;
    assert new_[..|old_|] == old_;
    AddedAreFresh(t.pool, renderers, pool, added);
    InstancePool.AllocatedSize(t.pool, es, pool, added);
    InstancePool.AllocatedKeepsLive(t.pool, es, pool, added);
    forall k | 0 <= k < |renderers|
      ensures new_[|old_| + k] == added[k]
    {
    }
  }

  /** Every handle allocated for a renderer is new to the pool and now maps
      to that renderer's entity. */
  lemma AddedAreFresh(p: InstancePool.Pool, renderers: seq<MeshRenderer>, q: InstancePool.Pool, added: seq<Instance>)
    requires InstancePool.AllocatedFrom(p, Entities(renderers), q, added)
    ensures forall k :: 0 <= k < |renderers| ==>
      && added[k].index !in p.live
      && added[k].index in q.live
      && q.live[added[k].index] == EntityOf(renderers[k])
  {
    var es := Entities(renderers);
    InstancePool.ExtendLookupNew(p.live, added, es);
    InstancePool.IndicesMember(added);
  }

  lemma RegisterKeepsInv(t: Brg, i: int, es: seq<InstancePool.Entity>, pool: InstancePool.Pool, added: seq<Instance>)
    requires 0 <= i < |t.batches|
    requires InstancePool.AllocatedFrom(t.pool, es, pool, added) && InstancePool.SanityCheck(pool)
    ensures Consistent(t) ==>
      var b := t.batches[i];
      Consistent(t.(pool := pool, batches := t.batches[i := b.(validLightMaps := true, instances := b.instances + added)]))
  {
    if Consistent(t) {
      var b := t.batches[i];
      var b' := b.(validLightMaps := true, instances := b.instances + added);
      InstancePool.ExtendKeys(t.pool.live, added, es);
      InstancePool.IndexSeqConcat(b.instances, added);
      HeldContains(t.batches, i);
      ExclusiveDistinct(t.batches, i);
      HeldUpdate(t.batches, i, b');
      ExclusiveUpdate(t.batches, i, b');
    }
  }

  /** Frees every instance of the batch of `h` back to the pool, empties its
      list and marks it invalid. The slot is not pushed onto the free-slot
      stack. */
  function DestroyInstanceBatch(t: Brg, h: BatchHandle): (r: Result<Brg, BrgError>)
    ensures !IsValid(h) || h.index >= |t.batches| ==> r == Failure(HandleInvalid)
    ensures IsValid(h) && h.index < 0 ==> r == Failure(IndexOutOfRange)
    ensures r.Success? ==>
      && 0 <= h.index < |t.batches|
      && |r.value.batches| == |t.batches|
      && r.value.batches[h.index] == t.batches[h.index].(isValid := false, instances := [])
      && (forall b :: 0 <= b < |t.batches| && b != h.index ==> r.value.batches[b] == t.batches[b])
      && r.value.pool.live == t.pool.live - InstancePool.Indices(t.batches[h.index].instances)
      && r.value.pool.free == t.pool.free + InstancePool.IndexSeq(t.batches[h.index].instances)
      && r.value.pool.capacity == t.pool.capacity
      && r.value.pool.size == t.pool.size
      && r.value.freeSlots == t.freeSlots
    ensures Consistent(t) && 0 <= h.index < |t.batches| ==> r.Success? && Consistent(r.value)
    ensures Inv(t) && 0 <= h.index < |t.batches| ==> r.Success? && Inv(r.value)
  {
    if !IsValid(h) || h.index >= |t.batches| then
      Failure(HandleInvalid)
    else if h.index < 0 then
      Failure(IndexOutOfRange)
    else
      var b := t.batches[h.index];
      DestroyFreesAll(t, h.index);
      match InstancePool.FreeMany(t.pool, b.instances)
      case Failure(e) => Failure(PoolFailure(e))
      case Success(pool) =>
        DestroyKeepsInv(t, h.index, pool);
        Success(t.(pool := pool, batches := t.batches[h.index := b.(isValid := false, instances := [])]))
  }

  lemma DestroyFreesAll(t: Brg, i: int)
    requires 0 <= i < |t.batches|
    ensures Consistent(t) ==> InstancePool.FreeMany(t.pool, t.batches[i].instances).Success?
  {
    if Consistent(t) {
      HeldContains(t.batches, i);
      ExclusiveDistinct(t.batches, i);
    }
  }

  lemma DestroyKeepsInv(t: Brg, i: int, pool: InstancePool.Pool)
    requires 0 <= i < |t.batches|
    requires InstancePool.FreeMany(t.pool, t.batches[i].instances) == Success(pool)
    ensures Consistent(t) ==>
      var b := t.batches[i];
      Consistent(t.(pool := pool, batches := t.batches[i := b.(isValid := false, instances := [])]))
  {
    if Consistent(t) {
      var b := t.batches[i];
      var b' := b.(isValid := false, instances := []);
      HeldContains(t.batches, i);
      HeldUpdate(t.batches, i, b');
      ExclusiveUpdate(t.batches, i, b');
      assert pool.live.Keys == t.pool.live.Keys - InstancePool.Indices(b.instances);
    }
  }

  /** Creates a batch and registers the renderers into it. */
  function CreateBatchFromGameObjectInstances(t: Brg, renderers: seq<MeshRenderer>): (r: Result<(Brg, BatchHandle), BrgError>)
    requires Inv(t)
    ensures r.Success? <==> |t.pool.live| + |renderers| <= t.pool.capacity
    ensures r.Success? ==> NewBatchHolds(t, renderers, r.value.0, r.value.1)
  {
    var c := CreateInstanceBatch(t).value;
    CreateThenRegister(t, c, renderers);
    match RegisterGameObjectInstances(c.state, c.handle, renderers)
    case Failure(e) => Failure(e)
    case Success(s) => Success((s, c.handle))
  }

  /** `s` is `t` grown by one valid batch at handle `h`, appended after the
      untouched old batches and holding one fresh pool instance per renderer,
      mapped to that renderer; the pool keeps every old entry and its
      capacity, and the table invariant is kept. */
  ghost predicate NewBatchHolds(t: Brg, renderers: seq<MeshRenderer>, s: Brg, h: BatchHandle) {
    && Inv(s)
    && h.index == |t.batches|
    && |s.batches| == |t.batches| + 1
    && s.batches[..|t.batches|] == t.batches
    && s.batches[h.index].isValid
    && |s.batches[h.index].instances| == |renderers|
    && (forall k :: 0 <= k < |renderers| ==>
          && s.batches[h.index].instances[k].index !in t.pool.live
          && s.batches[h.index].instances[k].index in s.pool.live
          && s.pool.live[s.batches[h.index].instances[k].index] == EntityOf(renderers[k]))
    && |s.pool.live| == |t.pool.live| + |renderers|
    && s.pool.capacity == t.pool.capacity
    && (forall k :: k in t.pool.live ==> k in s.pool.live && s.pool.live[k] == t.pool.live[k])
  }

  lemma CreateThenRegister(t: Brg, c: Created, renderers: seq<MeshRenderer>)
    requires Inv(t) && CreateInstanceBatch(t) == Success(c)
    ensures
      var r := RegisterGameObjectInstances(c.state, c.handle, renderers);
      && (r.Success? <==> |t.pool.live| + |renderers| <= t.pool.capacity)
      && (r.Success? ==> NewBatchHolds(t, renderers, r.value, c.handle))
  {
    InstancePool.LiveBound(t.pool);
    var r := RegisterGameObjectInstances(c.state, c.handle, renderers);
    if r.Success? {
      CreateThenRegisterInv(t, c, renderers, r.value);
      CreateThenRegisterSize(t, c, renderers, r.value);
      if |renderers| > 0 {
        FrameKeepsPrefix(c.state.batches, r.value.batches, |t.batches|);
      }
      CreateThenRegisterBatch(t, c, renderers, r.value);
    }
  }

  lemma CreateThenRegisterInv(t: Brg, c: Created, renderers: seq<MeshRenderer>, s: Brg)
    requires Inv(t) && CreateInstanceBatch(t) == Success(c)
    requires RegisterGameObjectInstances(c.state, c.handle, renderers) == Success(s)
    ensures Inv(s)
  {
  }

  lemma CreateThenRegisterSize(t: Brg, c: Created, renderers: seq<MeshRenderer>, s: Brg)
    requires t.freeSlots == [] && InstancePool.SanityCheck(t.pool) && CreateInstanceBatch(t) == Success(c)
    requires RegisterGameObjectInstances(c.state, c.handle, renderers) == Success(s)
    ensures c.handle.index == |t.batches| && |s.batches| == |t.batches| + 1
  {
  }

  lemma FrameKeepsPrefix(old_: seq<BatchData>, new_: seq<BatchData>, n: nat)
    requires n < |old_| == |new_|
    requires forall b :: 0 <= b < |old_| && b != n ==> new_[b] == old_[b]
    ensures new_[..n] == old_[..n]
  {
  }

  lemma CreateThenRegisterBatch(t: Brg, c: Created, renderers: seq<MeshRenderer>, s: Brg)
    requires t.freeSlots == [] && InstancePool.SanityCheck(t.pool) && CreateInstanceBatch(t) == Success(c)
    requires RegisterGameObjectInstances(c.state, c.handle, renderers) == Success(s)
    ensures c.handle.index < |s.batches| && s.batches[c.handle.index].isValid
    ensures |s.batches[c.handle.index].instances| == |renderers|
    ensures forall k :: 0 <= k < |renderers| ==>
      && s.batches[c.handle.index].instances[k].index !in t.pool.live
      && s.batches[c.handle.index].instances[k].index in s.pool.live
      && s.pool.live[s.batches[c.handle.index].instances[k].index] == EntityOf(renderers[k])
    ensures |s.pool.live| == |t.pool.live| + |renderers|
    ensures s.pool.capacity == t.pool.capacity
    ensures forall k :: k in t.pool.live ==> k in s.pool.live && s.pool.live[k] == t.pool.live[k]
  {
    var i := c.handle.index;
    assert c.state.batches[i].instances == [] && c.state.pool == t.pool;
    if |renderers| > 0 {
      FreshBatchRegistered(c.state, i, renderers, s);
    } else {
      assert s == c.state;
    }
  }

  /** Registering into an empty batch: its instances are exactly the new ones. */
  lemma FreshBatchRegistered(u: Brg, i: int, renderers: seq<MeshRenderer>, s: Brg)
    requires 0 <= i < |u.batches| && u.batches[i].instances == []
    requires AppendedInto(u, i, renderers, s)
    ensures |s.batches[i].instances| == |renderers|
    ensures forall k :: 0 <= k < |renderers| ==>
      && s.batches[i].instances[k].index !in u.pool.live
      && s.batches[i].instances[k].index in s.pool.live
      && s.pool.live[s.batches[i].instances[k].index] == EntityOf(renderers[k])
  {
    assert RegisteredInto(u, i, renderers, s);
    var new_ := s.batches[i].instances;
    forall k | 0 <= k < |renderers|
      ensures new_[k].index !in u.pool.live && new_[k].index in s.pool.live
      ensures s.pool.live[new_[k].index] == EntityOf(renderers[k])
    {
      assert EntityOf(renderers[k]) == s.pool.live[new_[0 + k].index];
    }
  }

  /** The destroy that hands its slot back: it refuses a batch that is
      already invalid (which would put the slot on the stack twice) and pushes
      the slot onto the free-slot stack. */
  function DestroyAndRecycle(t: Brg, h: BatchHandle): (r: Result<Brg, BrgError>)
    ensures !IsValid(h) || h.index >= |t.batches| ==> r == Failure(HandleInvalid)
    ensures IsValid(h) && h.index < 0 ==> r == Failure(IndexOutOfRange)
    ensures 0 <= h.index < |t.batches| && !t.batches[h.index].isValid ==> r == Failure(HandleInvalid)
    ensures r.Success? ==> 0 <= h.index < |t.batches| && t.batches[h.index].isValid
    ensures r.Success? ==> r.value.freeSlots == t.freeSlots + [h]
    ensures r.Success? ==>
      && DestroyInstanceBatch(t, h).Success?
      && r.value == DestroyInstanceBatch(t, h).value.(freeSlots := t.freeSlots + [h])
    ensures r.Success? ==>
      && !r.value.batches[h.index].isValid && r.value.batches[h.index].instances == []
      && r.value.pool.live == t.pool.live - InstancePool.Indices(t.batches[h.index].instances)
    ensures Consistent(t) && 0 <= h.index < |t.batches| && t.batches[h.index].isValid ==> r.Success?
  {
    if !IsValid(h) || h.index >= |t.batches| then
      Failure(HandleInvalid)
    else if h.index < 0 then
      Failure(IndexOutOfRange)
    else if !t.batches[h.index].isValid then
      Failure(HandleInvalid)
    else
      match DestroyInstanceBatch(t, h)
      case Failure(e) => Failure(e)
      case Success(s) => Success(s.(freeSlots := s.freeSlots + [h]))
  }

  /** Every slot on the free-slot stack names its own batch, and that batch
      is invalid and empty, so handing the slot out again is safe. */
  ghost predicate FreeSlotsDead(t: Brg) {
    && (forall k :: 0 <= k < |t.freeSlots| ==>
          && 0 <= t.freeSlots[k].index < |t.batches|
          && !t.batches[t.freeSlots[k].index].isValid
          && t.batches[t.freeSlots[k].index].instances == [])
    && (forall j, k :: 0 <= j < k < |t.freeSlots| ==> t.freeSlots[j].index != t.freeSlots[k].index)
  }

  /** The table invariant once destroyed slots are recycled. */
  ghost predicate RecyclingInv(t: Brg) {
    Consistent(t) && FreeSlotsDead(t)
  }

  /** With recycling, creation always succeeds, both slot assertions hold,
      and the invariant is kept, whether the slot is new or recycled. */
  lemma CreateKeepsRecyclingInv(t: Brg)
    requires RecyclingInv(t)
    ensures CreateInstanceBatch(t).Success?
    ensures CreateInstanceBatch(t).value.assertionsHeld
    ensures RecyclingInv(CreateInstanceBatch(t).value.state)
  {
    if |t.freeSlots| > 0 {
      var n := |t.freeSlots| - 1;
      var i := t.freeSlots[n].index;
      var b := t.batches[i];
      var s := CreateInstanceBatch(t).value.state;
      assert s.batches == t.batches[i := b.(isValid := true)];
      HeldUpdate(t.batches, i, b.(isValid := true));
      ExclusiveUpdate(t.batches, i, b.(isValid := true));
      forall k | 0 <= k < |s.freeSlots|
        ensures s.freeSlots[k].index != i
      {
        assert s.freeSlots[k] == t.freeSlots[k];
      }
    }
  }

  /** With recycling, destroying a valid batch succeeds and keeps the
      invariant: the slot joins the stack invalid and empty, and cannot be
      on it twice because only a valid batch can be destroyed. */
  lemma DestroyAndRecycleKeepsInv(t: Brg, h: BatchHandle)
    requires RecyclingInv(t) && 0 <= h.index < |t.batches| && t.batches[h.index].isValid
    ensures DestroyAndRecycle(t, h).Success?
    ensures RecyclingInv(DestroyAndRecycle(t, h).value)
  {
    var d := DestroyInstanceBatch(t, h).value;
    var s := DestroyAndRecycle(t, h).value;
    assert s == d.(freeSlots := t.freeSlots + [h]);
    forall k | 0 <= k < |t.freeSlots|
      ensures t.freeSlots[k].index != h.index
      ensures s.batches[t.freeSlots[k].index] == t.batches[t.freeSlots[k].index]
    {
    }
  }

  /** With recycling, registering into a valid batch keeps the invariant:
      the free slots name invalid batches, so none of them is touched. */
  lemma RegisterKeepsRecyclingInv(t: Brg, h: BatchHandle, renderers: seq<MeshRenderer>)
    requires RecyclingInv(t) && 0 <= h.index < |t.batches| && t.batches[h.index].isValid
    ensures RegisterGameObjectInstances(t, h, renderers).Success? ==>
      RecyclingInv(RegisterGameObjectInstances(t, h, renderers).value)
  {
    var r := RegisterGameObjectInstances(t, h, renderers);
    if r.Success? && |renderers| > 0 {
      LiveBatchSparesFreeSlots(t, h.index, r.value);
    }
  }

  lemma LiveBatchSparesFreeSlots(t: Brg, i: int, s: Brg)
    requires FreeSlotsDead(t) && 0 <= i < |t.batches| == |s.batches| && t.batches[i].isValid
    requires forall b :: 0 <= b < |t.batches| && b != i ==> s.batches[b] == t.batches[b]
    requires s.freeSlots == t.freeSlots
    ensures FreeSlotsDead(s)
  {
    forall k | 0 <= k < |t.freeSlots|
      ensures s.batches[t.freeSlots[k].index] == t.batches[t.freeSlots[k].index]
    {
    }
  }

  // ---------------------------------------------------------------------
  // Properties relating several operations
  // ---------------------------------------------------------------------

  /** As written, destroying a batch and creating another never reuses the
      slot: creation appends, the new handle differs, and the table grows. */
  lemma DestroyThenCreateGrowsTable(t: Brg, h: BatchHandle)
    requires Inv(t) && 0 <= h.index < |t.batches|
    ensures DestroyInstanceBatch(t, h).Success?
    ensures
      var c := CreateInstanceBatch(DestroyInstanceBatch(t, h).value);
      && c.Success?
      && c.value.handle.index == |t.batches|
      && c.value.handle != h
      && |c.value.state.batches| == |t.batches| + 1
  {
  }

  /** The smallest run that shows the missing recycling: create, destroy,
      create hands out slot 1 in a table of two slots. */
  lemma CreateDestroyCreateScenario()
    ensures
      var t0 := Initialize(4);
      var c0 := CreateInstanceBatch(t0).value;
      var t1 := DestroyInstanceBatch(c0.state, c0.handle).value;
      var c1 := CreateInstanceBatch(t1).value;
      && c0.handle == BatchHandle(0)
      && c1.handle == BatchHandle(1)
      && |c1.state.batches| == 2
      && !c1.state.batches[0].isValid
  {
    var t0 := Initialize(4);
    var c0 := CreateInstanceBatch(t0).value;
    DestroyThenCreateGrowsTable(c0.state, c0.handle);
  }

  /** With recycling, creating right after a destroy hands the destroyed
      slot back, valid and empty, without growing the table. */
  lemma RecycledSlotIsReused(t: Brg, h: BatchHandle)
    requires Inv(t) && 0 <= h.index < |t.batches| && t.batches[h.index].isValid
    ensures DestroyAndRecycle(t, h).Success?
    ensures
      var c := CreateInstanceBatch(DestroyAndRecycle(t, h).value);
      && c.Success?
      && c.value.handle == h
      && c.value.assertionsHeld
      && |c.value.state.batches| == |t.batches|
      && c.value.state.batches[h.index].isValid
      && c.value.state.batches[h.index].instances == []
      && c.value.state.freeSlots == []
  {
    var s := DestroyInstanceBatch(t, h).value;
    assert s.freeSlots + [h] == [h];
    assert DestroyAndRecycle(t, h) == Success(s.(freeSlots := [h]));
  }

  // ---------------------------------------------------------------------
  // Helper lemmas about Held and Exclusive
  // ---------------------------------------------------------------------

  lemma AppendPreservesHeld(bs: seq<BatchData>, b: BatchData)
    requires b.instances == []
    ensures Held(bs + [b]) == Held(bs)
    ensures Exclusive(bs + [b]) <==> Exclusive(bs)
  {
    assert (bs + [b])[..|bs|] == bs;
  }

  lemma {:induction false} HeldContains(bs: seq<BatchData>, i: int)
    requires 0 <= i < |bs|
    ensures InstancePool.Indices(bs[i].instances) <= Held(bs)
  {
    if i < |bs| - 1 {
      HeldContains(bs[..|bs| - 1], i);
    }
  }

  lemma {:induction false} ExclusiveDistinct(bs: seq<BatchData>, i: int)
    requires 0 <= i < |bs| && Exclusive(bs)
    ensures InstancePool.Distinct(bs[i].instances)
  {
    if i < |bs| - 1 {
      ExclusiveDistinct(bs[..|bs| - 1], i);
    }
  }

  /** Replacing one batch of an exclusive table changes the held slots by
      exactly the slots the old and new batch hold. */
  lemma {:induction false} HeldUpdate(bs: seq<BatchData>, i: int, b: BatchData)
    requires 0 <= i < |bs| && Exclusive(bs)
    ensures Held(bs[i := b]) == (Held(bs) - InstancePool.Indices(bs[i].instances)) + InstancePool.Indices(b.instances)
  {
    var n := |bs| - 1;
    var pre := bs[..n];
    assert bs[i := b][..n] == if i == n then pre else pre[i := b];
    if i < n {
      HeldUpdate(pre, i, b);
      HeldContains(pre, i);
    }
  }

  /** Replacing one batch keeps the table exclusive when the new batch is
      distinct and holds none of the slots the other batches hold. */
  lemma {:induction false} ExclusiveUpdate(bs: seq<BatchData>, i: int, b: BatchData)
    requires 0 <= i < |bs| && Exclusive(bs)
    requires InstancePool.Distinct(b.instances)
    requires InstancePool.Indices(b.instances) !! (Held(bs) - InstancePool.Indices(bs[i].instances))
    ensures Exclusive(bs[i := b])
  {
    var n := |bs| - 1;
    var pre := bs[..n];
    assert bs[i := b][..n] == if i == n then pre else pre[i := b];
    if i < n {
      HeldContains(pre, i);
      ExclusiveUpdate(pre, i, b);
      HeldUpdate(pre, i, b);
    }
  }
}

=== FILE: instance_data_buffer.dfy ===
/** The structured instance buffer, its uploader and its CPU read-back, as
    far as their contract shows through the pipeline tests.

    A buffer is built from an ordered list of property descriptions and an
    instance count. Properties are packed one after another: a per-instance
    property takes `byteSize * instanceCount` bytes, a shared one takes
    `byteSize` bytes once. Property `p` of instance `i` lives at
    `base[p] + byteSize[p] * i` (at `base[p]` for a shared property).

    The uploader queues (instance, property, value) writes and applies them
    in order on submit. Read-back copies the buffer into an array of 16-byte
    vectors and reads a property at the vector its address falls in.

    The builder, the uploader and the read-back request are engine code that
    is not part of this model; their behaviour here is the one the tests rely
    on. Values are raw bytes: what a float means is not modelled. */
module InstanceDataBuffer {
  import opened Wrappers

  newtype Byte = x: int | 0 <= x < 256

  /** Size of one `Vector4`: the unit of the read-back array. */
  const Vec4Size: nat := 16

  datatype PropertyDesc = PropertyDesc(id: int, byteSize: nat, isPerInstance: bool, isOverridden: bool)

  /** Bytes one property takes in a buffer of `n` instances. */
  function Extent(d: PropertyDesc, n: nat): nat {
    if d.isPerInstance then d.byteSize * n else d.byteSize
  }

  /** Bytes all of `ds` take, packed one after another. */
  function PackedSize(ds: seq<PropertyDesc>, n: nat): nat {
    if ds == [] then 0 else PackedSize(ds[..|ds| - 1], n) + Extent(ds[|ds| - 1], n)
  }

  /** Base address of every property: the packed size of the ones before it. */
  function BaseAddresses(ds: seq<PropertyDesc>, n: nat): (r: seq<nat>)
    ensures |r| == |ds|
    ensures forall k :: 0 <= k < |ds| ==> r[k] == PackedSize(ds[..k], n)
  {
    if ds == [] then []
    else
      var pre := ds[..|ds| - 1];
      var r := BaseAddresses(pre, n) + [PackedSize(pre, n)];
      assert forall k :: 0 <= k < |pre| ==> pre[..k] == ds[..k];
      r
  }

  predicate IdsDistinct(ds: seq<PropertyDesc>) {
    forall j, k :: 0 <= j < k < |ds| ==> ds[j].id != ds[k].id
  }

  datatype Buffer = Buffer(descriptions: seq<PropertyDesc>, instanceCount: nat,
                           componentAddress: seq<nat>, byteSize: nat)

  /** A buffer as the builder produces it. */
  ghost predicate WellFormed(b: Buffer) {
    && IdsDistinct(b.descriptions)
    && |b.componentAddress| == |b.descriptions|
    && (forall k :: 0 <= k < |b.descriptions| ==>
          b.componentAddress[k] == PackedSize(b.descriptions[..k], b.instanceCount))
    && b.byteSize == PackedSize(b.descriptions, b.instanceCount)
  }

  datatype BuildError = DuplicateProperty

  /** Packs the properties into one buffer; a property id given twice is
      refused. */
  function Build(ds: seq<PropertyDesc>, instanceCount: nat): (r: Result<Buffer, BuildError>)
    ensures r.Success? <==> IdsDistinct(ds)
    ensures r.Success? ==>
      && WellFormed(r.value)
      && r.value.descriptions == ds
      && r.value.instanceCount == instanceCount
  {
    if !IdsDistinct(ds) then Failure(DuplicateProperty)
    else Success(Buffer(ds, instanceCount, BaseAddresses(ds, instanceCount), PackedSize(ds, instanceCount)))
  }

  /** Index of the property with this id, or -1 when there is none. */
  function GetPropertyIndex(ds: seq<PropertyDesc>, id: int): (r: int)
    ensures r == -1 <==> forall k :: 0 <= k < |ds| ==> ds[k].id != id
    ensures r != -1 ==> 0 <= r < |ds| && ds[r].id == id
    ensures r != -1 ==> forall k :: 0 <= k < r ==> ds[k].id != id
  {
    if ds == [] then -1
    else
      var r := GetPropertyIndex(ds[..|ds| - 1], id);
      if r != -1 then r
      else if ds[|ds| - 1].id == id then |ds| - 1
      else -1
  }

  /** `k` is the first position of `ds` whose property has this id. */
  ghost predicate FindsAt(ds: seq<PropertyDesc>, id: int, k: int) {
    && 0 <= k < |ds|
    && ds[k].id == id
    && forall j :: 0 <= j < k ==> ds[j].id != id
  }

  lemma FindsAtIsIndex(ds: seq<PropertyDesc>, id: int)
    ensures forall k :: FindsAt(ds, id, k) <==> k == GetPropertyIndex(ds, id) != -1
  {
  }

  /** Whether property `p` of instance `i` and property `q` of instance `j`
      are the same bytes: the same property, and the same instance unless the
      property is shared. */
  predicate SameSlot(b: Buffer, p: nat, i: nat, q: nat, j: nat)
    requires p < |b.descriptions|
  {
    p == q && (i == j || !b.descriptions[p].isPerInstance)
  }

  /** Byte address of property `p` of instance `i`. */
  function Address(b: Buffer, p: nat, i: nat): nat
    requires p < |b.descriptions| == |b.componentAddress|
  {
    b.componentAddress[p] + (if b.descriptions[p].isPerInstance then b.descriptions[p].byteSize * i else 0)
  }

  // ---------------------------------------------------------------------
  // Layout lemmas
  // ---------------------------------------------------------------------

  lemma MulLe(s: nat, a: nat, c: nat)
    requires a <= c
    ensures s * a <= s * c
  {
    assert s * c == s * a + s * (c - a);
  }

  lemma {:induction false} PackedSizeMono(ds: seq<PropertyDesc>, n: nat, k: nat, l: nat)
    requires k <= l <= |ds|
    ensures PackedSize(ds[..k], n) <= PackedSize(ds[..l], n)
  {
    if k < l {
      PackedSizeMono(ds, n, k, l - 1);
      assert ds[..l][..l - 1] == ds[..l - 1];
    }
  }

  lemma PackedSizeStep(ds: seq<PropertyDesc>, n: nat, k: nat)
    requires k < |ds|
    ensures PackedSize(ds[..k + 1], n) == PackedSize(ds[..k], n) + Extent(ds[k], n)
  {
    assert ds[..k + 1][..k] == ds[..k];
  }

  /** Every slot of every property lies inside the buffer, and inside the
      property's own extent. */
  lemma ComponentInBounds(b: Buffer, p: nat, i: nat)
    requires WellFormed(b) && p < |b.descriptions| && i < b.instanceCount
    ensures Address(b, p, i) + b.descriptions[p].byteSize
            <= b.componentAddress[p] + Extent(b.descriptions[p], b.instanceCount)
    ensures Address(b, p, i) + b.descriptions[p].byteSize <= b.byteSize
  {
    var ds, n := b.descriptions, b.instanceCount;
    var base, sz := b.componentAddress[p], ds[p].byteSize;
    if ds[p].isPerInstance {
      MulLe(sz, i + 1, n);
      assert sz * (i + 1) == sz * i + sz;
      assert Address(b, p, i) == base + sz * i;
      assert Extent(ds[p], n) == sz * n;
    } else {
      assert Address(b, p, i) == base && Extent(ds[p], n) == sz;
    }
    PackedSizeStep(ds, n, p);
    PackedSizeMono(ds, n, p + 1, |ds|);
    assert ds[..|ds|] == ds;
  }

  /** Two different slots never share a byte. */
  lemma ComponentsDisjoint(b: Buffer, p: nat, i: nat, q: nat, j: nat)
    requires WellFormed(b) && p < |b.descriptions| && q < |b.descriptions|
    requires i < b.instanceCount && j < b.instanceCount
    requires !SameSlot(b, p, i, q, j)
    ensures || Address(b, p, i) + b.descriptions[p].byteSize <= Address(b, q, j)
            || Address(b, q, j) + b.descriptions[q].byteSize <= Address(b, p, i)
  {
    if p == q {
      if i < j {
        InstancesInOrder(b.componentAddress[p], b.descriptions[p].byteSize, i, j);
      } else {
        InstancesInOrder(b.componentAddress[p], b.descriptions[p].byteSize, j, i);
      }
    } else if p < q {
      PropertiesInOrder(b, p, i, q, j);
    } else {
      PropertiesInOrder(b, q, j, p, i);
    }
  }

  lemma InstancesInOrder(base: nat, s: nat, i: nat, j: nat)
    requires i < j
    ensures base + s * i + s <= base + s * j
  {
    MulLe(s, i + 1, j);
    assert s * (i + 1) == s * i + s;
  }

  lemma PropertiesInOrder(b: Buffer, p: nat, i: nat, q: nat, j: nat)
    requires WellFormed(b) && p < q < |b.descriptions|
    requires i < b.instanceCount
    ensures Address(b, p, i) + b.descriptions[p].byteSize <= Address(b, q, j)
  {
    var ds, n := b.descriptions, b.instanceCount;
    ComponentInBounds(b, p, i);
    PackedSizeStep(ds, n, p);
    PackedSizeMono(ds, n, p + 1, q);
    assert b.componentAddress[p] + Extent(ds[p], n) <= b.componentAddress[q];
  }

  /** Property sizes that are whole vectors give vector-aligned addresses and
      a buffer of whole vectors. */
  predicate VectorSized(ds: seq<PropertyDesc>) {
    forall k :: 0 <= k < |ds| ==> ds[k].byteSize % Vec4Size == 0
  }

  lemma MulAligned(s: nat, i: nat)
    requires s % Vec4Size == 0
    ensures (s * i) % Vec4Size == 0
  {
    var c := s / Vec4Size;
    assert s == Vec4Size * c;
    assert s * i == Vec4Size * (c * i);
  }

  lemma {:induction false} PackedSizeAligned(ds: seq<PropertyDesc>, n: nat)
    requires VectorSized(ds)
    ensures PackedSize(ds, n) % Vec4Size == 0
  {
    if ds != [] {
      var pre := ds[..|ds| - 1];
      assert VectorSized(pre);
      PackedSizeAligned(pre, n);
      var e := Extent(ds[|ds| - 1], n);
      MulAligned(ds[|ds| - 1].byteSize, n);
      assert e % Vec4Size == 0;
      AddAligned(PackedSize(pre, n), e);
    }
  }

  lemma AddAligned(x: nat, y: nat)
    requires x % Vec4Size == 0 && y % Vec4Size == 0
    ensures (x + y) % Vec4Size == 0
  {
    assert x == Vec4Size * (x / Vec4Size);
    assert y == Vec4Size * (y / Vec4Size);
    assert x + y == Vec4Size * (x / Vec4Size + y / Vec4Size);
  }

  lemma AddressAligned(b: Buffer, p: nat, i: nat)
    requires WellFormed(b) && VectorSized(b.descriptions) && p < |b.descriptions|
    ensures Address(b, p, i) % Vec4Size == 0
    ensures b.byteSize % Vec4Size == 0
  {
    var ds := b.descriptions;
    assert VectorSized(ds[..p]);
    PackedSizeAligned(ds[..p], b.instanceCount);
    PackedSizeAligned(ds, b.instanceCount);
    var offset := if ds[p].isPerInstance then ds[p].byteSize * i else 0;
    MulAligned(ds[p].byteSize, i);
    assert offset % Vec4Size == 0;
    assert b.componentAddress[p] == PackedSize(ds[..p], b.instanceCount);
    AddAligned(b.componentAddress[p], offset);
  }

  // ---------------------------------------------------------------------
  // Uploader
  // ---------------------------------------------------------------------

  /** A queued write of `bytes` to property `property` of instance `instance`. */
  datatype Write = Write(instance: nat, property: nat, bytes: seq<Byte>)

  datatype Uploader = Uploader(buffer: Buffer, pending: seq<Write>)

  datatype InstanceHandle = InstanceHandle(instance: nat)

  datatype UploadError = InstanceOutOfRange | PropertyOutOfRange | SizeMismatch

  /** A write the buffer can take: an existing property, an instance in
      range, and exactly the property's size. */
  predicate WriteFits(b: Buffer, w: Write) {
    && w.property < |b.descriptions|
    && w.instance < b.instanceCount
    && |w.bytes| == b.descriptions[w.property].byteSize
  }

  ghost predicate Valid(u: Uploader) {
    && WellFormed(u.buffer)
    && forall k :: 0 <= k < |u.pending| ==> WriteFits(u.buffer, u.pending[k])
  }

  function NewUploader(b: Buffer): (u: Uploader)
    ensures WellFormed(b) ==> Valid(u)
    ensures u.buffer == b && |u.pending| == 0
  {
    Uploader(b, [])
  }

  /** A write handle for one instance; an id outside the buffer is refused. */
  function AllocateInstance(u: Uploader, instanceId: int): (r: Result<InstanceHandle, UploadError>)
    ensures r.Success? <==> 0 <= instanceId < u.buffer.instanceCount
    ensures r.Success? ==> r.value.instance == instanceId
  {
    if 0 <= instanceId < u.buffer.instanceCount then Success(InstanceHandle(instanceId))
    else Failure(InstanceOutOfRange)
  }

  /** Queues one property value for the instance of `h`. */
  function WriteParameter(u: Uploader, h: InstanceHandle, propertyIndex: int, value: seq<Byte>): (r: Result<Uploader, UploadError>)
    ensures r.Success? <==>
      && 0 <= propertyIndex < |u.buffer.descriptions|
      && |value| == u.buffer.descriptions[propertyIndex].byteSize
      && h.instance < u.buffer.instanceCount
    ensures r.Success? ==> r.value.buffer == u.buffer && r.value.pending == u.pending + [Write(h.instance, propertyIndex, value)]
    ensures Valid(u) && r.Success? ==> Valid(r.value)
  {
    if !(0 <= propertyIndex < |u.buffer.descriptions|) then Failure(PropertyOutOfRange)
    else if |value| != u.buffer.descriptions[propertyIndex].byteSize then Failure(SizeMismatch)
    else if h.instance >= u.buffer.instanceCount then Failure(InstanceOutOfRange)
    else Success(u.(pending := u.pending + [Write(h.instance, propertyIndex, value)]))
  }

  /** `m` with `bytes` written at `at`. */
  function Splice(m: seq<Byte>, at: nat, bytes: seq<Byte>): (r: seq<Byte>)
    requires at + |bytes| <= |m|
    ensures |r| == |m|
    ensures r[at..at + |bytes|] == bytes
    ensures forall k :: 0 <= k < |m| && !(at <= k < at + |bytes|) ==> r[k] == m[k]
  {
    m[..at] + bytes + m[at + |bytes|..]
  }

  /** The buffer contents after the writes, applied in order. */
  function Apply(b: Buffer, m: seq<Byte>, ws: seq<Write>): (r: seq<Byte>)
    requires WellFormed(b) && |m| == b.byteSize
    requires forall k :: 0 <= k < |ws| ==> WriteFits(b, ws[k])
    ensures |r| == |m|
  {
    if ws == [] then m
    else
      var w := ws[|ws| - 1];
      assert WriteFits(b, w);
      ComponentInBounds(b, w.property, w.instance);
      Splice(Apply(b, m, ws[..|ws| - 1]), Address(b, w.property, w.instance), w.bytes)
  }

  /** Applies every queued write to the buffer contents `m` and empties the
      queue. */
  function SubmitToGpu(u: Uploader, m: seq<Byte>): (r: (Uploader, seq<Byte>))
    requires Valid(u) && |m| == u.buffer.byteSize
    ensures r.0.buffer == u.buffer && r.0.pending == []
    ensures |r.1| == |m|
    ensures forall p: nat, i: nat :: p < |u.buffer.descriptions| && i < u.buffer.instanceCount ==>
      Address(u.buffer, p, i) + u.buffer.descriptions[p].byteSize <= |r.1| &&
      r.1[Address(u.buffer, p, i)..Address(u.buffer, p, i) + u.buffer.descriptions[p].byteSize]
        == LastWriteOr(u.buffer, u.pending, p, i,
                        m[Address(u.buffer, p, i)..Address(u.buffer, p, i) + u.buffer.descriptions[p].byteSize])
  {
    var m' := Apply(u.buffer, m, u.pending);
    forall p: nat, i: nat | p < |u.buffer.descriptions| && i < u.buffer.instanceCount
      ensures Address(u.buffer, p, i) + u.buffer.descriptions[p].byteSize <= |m'|
      ensures m'[Address(u.buffer, p, i)..Address(u.buffer, p, i) + u.buffer.descriptions[p].byteSize]
        == LastWriteOr(u.buffer, u.pending, p, i,
                        m[Address(u.buffer, p, i)..Address(u.buffer, p, i) + u.buffer.descriptions[p].byteSize])
    {
      ApplyReadsLastWrite(u.buffer, m, u.pending, p, i);
    }
    (u.(pending := []), m')
  }

  /** The value of the last write in `ws` to the slot of property `p` of
      instance `i`, or `dflt` when no write reaches it. */
  function LastWriteOr(b: Buffer, ws: seq<Write>, p: nat, i: nat, dflt: seq<Byte>): seq<Byte>
    requires p < |b.descriptions|
  {
    if ws == [] then dflt
    else
      var w := ws[|ws| - 1];
      if SameSlot(b, p, i, w.property, w.instance) then w.bytes
      else LastWriteOr(b, ws[..|ws| - 1], p, i, dflt)
  }

  /** Read after write: each slot holds the last value written to it, or
      what it held before when nothing was. */
  lemma {:induction false} ApplyReadsLastWrite(b: Buffer, m: seq<Byte>, ws: seq<Write>, p: nat, i: nat)
    requires WellFormed(b) && |m| == b.byteSize
    requires forall k :: 0 <= k < |ws| ==> WriteFits(b, ws[k])
    requires p < |b.descriptions| && i < b.instanceCount
    ensures Address(b, p, i) + b.descriptions[p].byteSize <= b.byteSize
    ensures
      var (lo, hi) := (Address(b, p, i), Address(b, p, i) + b.descriptions[p].byteSize);
      Apply(b, m, ws)[lo..hi] == LastWriteOr(b, ws, p, i, m[lo..hi])
  {
    ComponentInBounds(b, p, i);
    if ws != [] {
      var pre := ws[..|ws| - 1];
      var w := ws[|ws| - 1];
      var lo, hi := Address(b, p, i), Address(b, p, i) + b.descriptions[p].byteSize;
      ApplyReadsLastWrite(b, m, pre, p, i);
      var before := Apply(b, m, pre);
      var at := Address(b, w.property, w.instance);
      ComponentInBounds(b, w.property, w.instance);
      assert Apply(b, m, ws) == Splice(before, at, w.bytes);
      if SameSlot(b, p, i, w.property, w.instance) {
        assert at == lo && |w.bytes| == hi - lo;
      } else {
        ComponentsDisjoint(b, p, i, w.property, w.instance);
        SpliceElsewhere(before, at, w.bytes, lo, hi);
      }
    }
  }

  lemma SpliceElsewhere(m: seq<Byte>, at: nat, bytes: seq<Byte>, lo: nat, hi: nat)
    requires at + |bytes| <= |m| && lo <= hi <= |m|
    requires at + |bytes| <= lo || hi <= at
    ensures Splice(m, at, bytes)[lo..hi] == m[lo..hi]
  {
    var r := Splice(m, at, bytes);
    assert forall k :: lo <= k < hi ==> r[k] == m[k];
  }

  // ---------------------------------------------------------------------
  // Read-back
  // ---------------------------------------------------------------------

  /** The buffer copied into whole 16-byte vectors; a trailing partial
      vector is dropped. A buffer built from whole-vector properties loses
      nothing. */
  function Readback(b: Buffer, m: seq<Byte>): (data: seq<Byte>)
    requires |m| == b.byteSize
    ensures |data| == (b.byteSize / Vec4Size) * Vec4Size
    ensures |data| <= |m| && data == m[..|data|]
    ensures WellFormed(b) && VectorSized(b.descriptions) ==> data == m
  {
    assert WellFormed(b) && VectorSized(b.descriptions) ==> b.byteSize % Vec4Size == 0 by {
      if WellFormed(b) && VectorSized(b.descriptions) {
        PackedSizeAligned(b.descriptions, b.instanceCount);
      }
    }
    m[..(b.byteSize / Vec4Size) * Vec4Size]
  }

  /** Integer division rounding toward zero, as C# does it: the quotient
      has the sign of `a` and the largest magnitude whose multiple of `d`
      does not pass `a`. */
  function DivTrunc(a: int, d: nat): (q: int)
    requires d > 0
    ensures a >= 0 ==> q >= 0 && q * d <= a < q * d + d
    ensures a < 0 ==> q <= 0 && a <= q * d < a + d
  {
    if a >= 0 then
      var q := a / d;
      QuotientBounds(a, d, q);
      q
    else
      var qq := (-a) / d;
      QuotientBounds(-a, d, qq);
      NegMul(qq, d);
      -qq
  }

  lemma QuotientBounds(a: nat, d: nat, q: nat)
    requires d > 0 && q == a / d
    ensures q * d <= a < q * d + d
  {
    assert a == q * d + a % d;
  }

  lemma NegMul(q: int, d: int)
    ensures (-q) * d == -(q * d)
  {
  }

  datatype LoadError = PropertyMissing | NotPerInstance | ReadOutOfBounds

  /** The vector of the read-back array where the load of property `p` for
      an instance starts: its byte address, divided by the vector size with
      C#'s truncating division. */
  function VectorOf(b: Buffer, p: nat, instanceId: int): int
    requires p < |b.componentAddress| && p < |b.descriptions|
  {
    DivTrunc(b.componentAddress[p] + b.descriptions[p].byteSize * instanceId, Vec4Size)
  }

  /** Reads `size` bytes of a per-instance property of one instance from the
      read-back array, starting at the vector the property's address falls
      in. A missing property, a shared one, and a read past the array are
      errors. */
  function LoadData(b: Buffer, data: seq<Byte>, instanceId: int, propertyId: int, size: nat): (r: Result<seq<Byte>, LoadError>)
    requires |b.componentAddress| == |b.descriptions|
    ensures r == Failure(PropertyMissing) <==> forall k :: 0 <= k < |b.descriptions| ==> b.descriptions[k].id != propertyId
    ensures r == Failure(NotPerInstance) <==>
      exists k :: FindsAt(b.descriptions, propertyId, k) && !b.descriptions[k].isPerInstance
    ensures r.Success? || r == Failure(ReadOutOfBounds) <==>
      exists k :: FindsAt(b.descriptions, propertyId, k) && b.descriptions[k].isPerInstance
    ensures r.Success? <==>
      exists k :: FindsAt(b.descriptions, propertyId, k) && b.descriptions[k].isPerInstance
        && 0 <= VectorOf(b, k, instanceId) && VectorOf(b, k, instanceId) * Vec4Size + size <= |data|
    ensures r.Success? ==> |r.value| == size
    ensures r.Success? ==>
      var p := GetPropertyIndex(b.descriptions, propertyId);
      && 0 <= p
      && b.descriptions[p].isPerInstance
      && var v := VectorOf(b, p, instanceId);
         && 0 <= v && v * Vec4Size + size <= |data|
         && r.value == data[v * Vec4Size..v * Vec4Size + size]
  {
    var p := GetPropertyIndex(b.descriptions, propertyId);
    FindsAtIsIndex(b.descriptions, propertyId);
    if p == -1 then Failure(PropertyMissing)
    else
      assert FindsAt(b.descriptions, propertyId, p);
      if !b.descriptions[p].isPerInstance then Failure(NotPerInstance)
      else
        var v := VectorOf(b, p, instanceId);
        if v < 0 || v * Vec4Size + size > |data| then Failure(ReadOutOfBounds)
        else Success(data[v * Vec4Size..v * Vec4Size + size])
  }

  /** With whole-vector property sizes, loading a property of an instance in
      range reads exactly that instance's slot. */
  lemma LoadDataReadsSlot(b: Buffer, m: seq<Byte>, i: nat, p: nat)
    requires WellFormed(b) && VectorSized(b.descriptions) && |m| == b.byteSize
    requires p < |b.descriptions| && b.descriptions[p].isPerInstance && i < b.instanceCount
    ensures Address(b, p, i) + b.descriptions[p].byteSize <= |m|
    ensures LoadData(b, Readback(b, m), i, b.descriptions[p].id, b.descriptions[p].byteSize)
            == Success(m[Address(b, p, i)..Address(b, p, i) + b.descriptions[p].byteSize])
  {
    var ds := b.descriptions;
    ComponentInBounds(b, p, i);
    AddressAligned(b, p, i);
    var q := GetPropertyIndex(ds, ds[p].id);
    assert q != -1;
    assert q == p;
    var a := Address(b, p, i);
    var data := Readback(b, m);
    assert |data| == |m|;
    var v := DivTrunc(a, Vec4Size);
    assert v * Vec4Size == a;
    assert data[a..a + ds[p].byteSize] == m[a..a + ds[p].byteSize];
  }
}

=== FILE: instance_pool.dfy ===
/** The visibility instance pool: a fixed-capacity arena of instance slots.
    Allocation pops the most recently freed slot when there is one and
    otherwise appends a fresh slot; freeing pushes the slot back. The pool's
    own sanity check (every slot below the high-water mark is either live or
    free, never both, and the free stack holds no duplicate) is the invariant
    every operation keeps. */
module InstancePool {
  import opened Wrappers

  /** Handle to one slot of the pool; index -1 is the invalid handle. */
  datatype Instance = Instance(index: int)

  /** What the pool remembers about a live slot: the transform it follows
      (an opaque reference) and whether it blends light probes. */
  datatype Entity = Entity(transform: nat, usesLightProbes: bool)

  datatype PoolError = Exhausted | NotLive

  /** `size` is the high-water mark: slots `0 .. size-1` have been handed out
      at least once. `free` is a stack whose top is its last element. */
  datatype Pool = Pool(capacity: nat, size: nat, free: seq<int>, live: map<int, Entity>)

  /** The slots `0 .. n-1`. */
  function Range(n: nat): (r: set<int>)
    ensures forall s :: s in r <==> 0 <= s < n
  {
    if n == 0 then {} else Range(n - 1) + {n - 1}
  }

  /** The elements of a sequence, and whether it repeats none, both defined
      from the back so that pushing and popping unfold them directly. */
  function SetOf(s: seq<int>): set<int> {
    if s == [] then {} else SetOf(s[..|s| - 1]) + {s[|s| - 1]}
  }

  predicate NoDup(s: seq<int>) {
    s == [] || (NoDup(s[..|s| - 1]) && s[|s| - 1] !in SetOf(s[..|s| - 1]))
  }

  /** The pool's internal consistency check: every slot below the high-water
      mark is live or on the free stack and not both, and no slot is on the
      free stack twice. */
  predicate SanityCheck(p: Pool) {
    && p.size <= p.capacity
    && p.live.Keys !! SetOf(p.free)
    && p.live.Keys + SetOf(p.free) == Range(p.size)
    && NoDup(p.free)
  }

  /** The slot indices of a sequence of handles, in order. */
  function IndexSeq(hs: seq<Instance>): (r: seq<int>)
    ensures |r| == |hs|
    ensures forall k :: 0 <= k < |hs| ==> r[k] == hs[k].index
  {
    if hs == [] then [] else IndexSeq(hs[..|hs| - 1]) + [hs[|hs| - 1].index]
  }

  function Indices(hs: seq<Instance>): set<int> {
    SetOf(IndexSeq(hs))
  }

  /** No two handles of `hs` name the same slot. */
  predicate Distinct(hs: seq<Instance>) {
    NoDup(IndexSeq(hs))
  }

  lemma {:induction false} SetOfMember(s: seq<int>, x: int)
    ensures x in SetOf(s) <==> exists k :: 0 <= k < |s| && s[k] == x
  {
    if s != [] {
      var pre := s[..|s| - 1];
      SetOfMember(pre, x);
      if x in SetOf(pre) {
        var k :| 0 <= k < |pre| && pre[k] == x;
        assert s[k] == x;
      }
      if exists k :: 0 <= k < |s| && s[k] == x {
        var k :| 0 <= k < |s| && s[k] == x;
        if k < |pre| { assert pre[k] == x; }
      }
    }
  }

  lemma {:induction false} NoDupSize(s: seq<int>)
    requires NoDup(s)
    ensures |SetOf(s)| == |s|
  {
    if s != [] {
      NoDupSize(s[..|s| - 1]);
    }
  }

  lemma IndexSeqSnoc(hs: seq<Instance>, h: Instance)
    ensures IndexSeq(hs + [h]) == IndexSeq(hs) + [h.index]
  {
    assert (hs + [h])[..|hs|] == hs;
  }

  function Initialize(maxEntities: nat): (p: Pool)
    ensures SanityCheck(p)
    ensures p.capacity == maxEntities && |p.live| == 0
  {
    Pool(maxEntities, 0, [], map[])
  }

  /** Allocates a slot for `e`: the top of the free stack if there is one,
      else the next never-used slot; fails once every slot is in use. */
  function Allocate(p: Pool, e: Entity): (r: Result<(Pool, Instance), PoolError>)
    ensures r.Success? <==> |p.free| > 0 || p.size < p.capacity
    ensures r.Success? && |p.free| > 0 ==>
      && r.value.1 == Instance(p.free[|p.free| - 1])
      && r.value.0.free == p.free[..|p.free| - 1]
      && r.value.0.size == p.size
    ensures r.Success? && |p.free| == 0 ==>
      && r.value.1 == Instance(p.size)
      && r.value.0.free == []
      && r.value.0.size == p.size + 1
    ensures r.Success? ==>
      r.value.0.live == p.live[r.value.1.index := e] && r.value.0.capacity == p.capacity
    ensures r.Success? && SanityCheck(p) ==>
      r.value.1.index !in p.live && SanityCheck(r.value.0)
  {
    if |p.free| > 0 then
      var s := p.free[|p.free| - 1];
      var q := p.(free := p.free[..|p.free| - 1], live := p.live[s := e]);
      assert SanityCheck(p) ==> s !in p.live && SanityCheck(q) by {
        if SanityCheck(p) {
          assert SetOf(p.free) == SetOf(q.free) + {s};
          assert q.live.Keys == p.live.Keys + {s};
        }
      }
      Success((q, Instance(s)))
    else if p.size < p.capacity then
      var q := p.(size := p.size + 1, live := p.live[p.size := e]);
      assert SanityCheck(p) ==> SanityCheck(q) by {
        assert Range(q.size) == Range(p.size) + {p.size};
      }
      Success((q, Instance(p.size)))
    else
      Failure(Exhausted)
  }

  /** Returns a live slot to the pool; freeing a slot that is not live (already
      freed, never allocated, or the invalid handle) is rejected. */
  function Free(p: Pool, h: Instance): (r: Result<Pool, PoolError>)
    ensures r.Success? <==> h.index in p.live
    ensures r.Success? ==>
      && r.value.live == p.live - {h.index}
      && r.value.free == p.free + [h.index]
      && r.value.size == p.size
      && r.value.capacity == p.capacity
    ensures r.Success? && SanityCheck(p) ==> SanityCheck(r.value)
  {
    if h.index in p.live then
      var q := p.(live := p.live - {h.index}, free := p.free + [h.index]);
      assert q.free[..|q.free| - 1] == p.free;
      assert SetOf(q.free) == SetOf(p.free) + {h.index};
      assert SanityCheck(p) ==> SanityCheck(q) by {
        assert q.live.Keys == p.live.Keys - {h.index};
      }
      Success(q)
    else
      Failure(NotLive)
  }

  lemma {:induction false} RangeSize(n: nat)
    ensures |Range(n)| == n
  {
    if n > 0 {
      RangeSize(n - 1);
    }
  }

  lemma SubsetSize(a: set<int>, b: set<int>)
    requires a <= b
    ensures |a| <= |b|
  {
    assert b == a + (b - a);
  }

  /** A sane pool never holds more live slots than its capacity; it holds
      exactly `size` of them when its free stack is empty, and fewer otherwise. */
  lemma LiveBound(p: Pool)
    requires SanityCheck(p)
    ensures |p.live| <= p.size <= p.capacity
    ensures |p.free| == 0 ==> |p.live| == p.size
    ensures |p.free| > 0 ==> |p.live| < p.size
  {
    RangeSize(p.size);
    assert |p.live| == |p.live.Keys|;
    if |p.free| == 0 {
      assert p.live.Keys == Range(p.size);
    } else {
      var f := p.free[|p.free| - 1];
      assert f in SetOf(p.free);
      var rest := Range(p.size) - {f};
      assert Range(p.size) == rest + {f};
      SubsetSize(p.live.Keys, rest);
    }
  }

  /** Allocation fails exactly when every one of the `capacity` slots is live. */
  lemma AllocateFailsIffFull(p: Pool, e: Entity)
    requires SanityCheck(p)
    ensures Allocate(p, e).Failure? <==> |p.live| == p.capacity
  {
    LiveBound(p);
  }

  /** The live map after recording `es[k]` under slot `hs[k]`, in order. */
  function Extend(live: map<int, Entity>, hs: seq<Instance>, es: seq<Entity>): map<int, Entity>
    requires |hs| == |es|
  {
    if hs == [] then live
    else Extend(live, hs[..|hs| - 1], es[..|es| - 1])[hs[|hs| - 1].index := es[|es| - 1]]
  }

  /** `q` and `hs` are what allocating one fresh slot per entity of `es`, in
      order, leaves behind when starting from `p`: the handles are new and
      distinct, and the live map gains exactly one entry per handle. */
  ghost predicate AllocatedFrom(p: Pool, es: seq<Entity>, q: Pool, hs: seq<Instance>) {
    && |hs| == |es|
    && q.capacity == p.capacity
    && Distinct(hs)
    && Indices(hs) !! p.live.Keys
    && q.live == Extend(p.live, hs, es)
  }

  /** Allocates one slot per entity, in order, all or nothing. It succeeds
      exactly when the pool has room for all of them. */
  function AllocateMany(p: Pool, es: seq<Entity>): (r: Result<(Pool, seq<Instance>), PoolError>)
    requires SanityCheck(p)
    ensures r.Success? <==> |p.live| + |es| <= p.capacity
    ensures r.Success? ==> SanityCheck(r.value.0) && AllocatedFrom(p, es, r.value.0, r.value.1)
    decreases |es|
  {
    if es == [] then
      LiveBound(p);
      Success((p, []))
    else
      var pre, e := es[..|es| - 1], es[|es| - 1];
      assert pre + [e] == es;
      match AllocateMany(p, pre)
      case Failure(err) => Failure(err)
      case Success((q, hs)) =>
        AllocateFailsIffFull(q, e);
        AllocatedSize(p, pre, q, hs);
        match Allocate(q, e)
        case Failure(err) => Failure(err)
        case Success((q1, h)) =>
          AllocateManyStep(p, pre, e, q, hs, q1, h);
          Success((q1, hs + [h]))
  }

  lemma AllocateManyStep(p: Pool, pre: seq<Entity>, e: Entity, q: Pool, hs: seq<Instance>, q1: Pool, h: Instance)
    requires AllocatedFrom(p, pre, q, hs)
    requires h.index !in q.live && q1.live == q.live[h.index := e] && q1.capacity == q.capacity
    ensures AllocatedFrom(p, pre + [e], q1, hs + [h])
    ensures |q1.live| == |q.live| + 1
  {
    var all, es := hs + [h], pre + [e];
    IndexSeqSnoc(hs, h);
    assert IndexSeq(all)[..|hs|] == IndexSeq(hs);
    assert all[..|hs|] == hs && es[..|pre|] == pre;
    ExtendKeys(p.live, hs, pre);
    assert q1.live.Keys == q.live.Keys + {h.index};
  }

  lemma {:induction false} ExtendKeys(live: map<int, Entity>, hs: seq<Instance>, es: seq<Entity>)
    requires |hs| == |es|
    ensures Extend(live, hs, es).Keys == live.Keys + Indices(hs)
  {
    if hs != [] {
      ExtendKeys(live, hs[..|hs| - 1], es[..|es| - 1]);
    }
  }

  lemma IndicesMember(hs: seq<Instance>)
    ensures forall k :: 0 <= k < |hs| ==> hs[k].index in Indices(hs)
  {
    forall k | 0 <= k < |hs| ensures hs[k].index in Indices(hs) {
      SetOfMember(IndexSeq(hs), hs[k].index);
      assert IndexSeq(hs)[k] == hs[k].index;
    }
  }

  /** Dropping the last handle keeps the rest distinct, and the last handle
      names none of the other slots. */
  lemma DistinctPrefix(hs: seq<Instance>)
    requires |hs| > 0 && Distinct(hs)
    ensures Distinct(hs[..|hs| - 1]) && hs[|hs| - 1].index !in Indices(hs[..|hs| - 1])
  {
    var n := |hs| - 1;
    assert hs[..n] + [hs[n]] == hs;
    IndexSeqSnoc(hs[..n], hs[n]);
    assert IndexSeq(hs)[..n] == IndexSeq(hs[..n]);
  }

  /** After extending, each new handle maps to its own entity. */
  lemma {:induction false} ExtendLookupNew(live: map<int, Entity>, hs: seq<Instance>, es: seq<Entity>)
    requires |hs| == |es| && Distinct(hs)
    ensures forall k :: 0 <= k < |hs| ==>
      hs[k].index in Extend(live, hs, es) && Extend(live, hs, es)[hs[k].index] == es[k]
  {
    if hs != [] {
      var n := |hs| - 1;
      var pre, epre := hs[..n], es[..n];
      DistinctPrefix(hs);
      ExtendLookupNew(live, pre, epre);
      IndicesMember(pre);
      forall k | 0 <= k < |hs|
        ensures hs[k].index in Extend(live, hs, es) && Extend(live, hs, es)[hs[k].index] == es[k]
      {
        if k < n {
          assert hs[k] == pre[k] && es[k] == epre[k];
        }
      }
    }
  }

  /** After extending, every old slot that no handle names keeps its entry. */
  lemma {:induction false} ExtendLookupOld(live: map<int, Entity>, hs: seq<Instance>, es: seq<Entity>)
    requires |hs| == |es|
    ensures forall s :: s in live && s !in Indices(hs) ==>
      s in Extend(live, hs, es) && Extend(live, hs, es)[s] == live[s]
  {
    if hs != [] {
      var n := |hs| - 1;
      var pre := hs[..n];
      assert pre + [hs[n]] == hs;
      IndexSeqSnoc(pre, hs[n]);
      ExtendLookupOld(live, pre, es[..n]);
    }
  }

  /** Allocation only adds: every slot live before keeps its entity. */
  lemma AllocatedKeepsLive(p: Pool, es: seq<Entity>, q: Pool, hs: seq<Instance>)
    requires AllocatedFrom(p, es, q, hs)
    ensures forall s :: s in p.live ==> s in q.live && q.live[s] == p.live[s]
  {
    ExtendLookupOld(p.live, hs, es);
  }

  /** The number of live slots grows by exactly the number of new handles. */
  lemma {:induction false} AllocatedSize(p: Pool, es: seq<Entity>, q: Pool, hs: seq<Instance>)
    requires AllocatedFrom(p, es, q, hs)
    ensures |q.live| == |p.live| + |es|
  {
    ExtendKeys(p.live, hs, es);
    NoDupSize(IndexSeq(hs));
    assert |q.live| == |q.live.Keys| && |p.live| == |p.live.Keys|;
  }

  /** Frees each handle in order, all or nothing: this succeeds exactly when
      the handles name distinct live slots. */
  function FreeMany(p: Pool, hs: seq<Instance>): (r: Result<Pool, PoolError>)
    ensures r.Success? <==> Distinct(hs) && Indices(hs) <= p.live.Keys
    ensures r.Success? ==>
      && r.value.live == p.live - Indices(hs)
      && r.value.free == p.free + IndexSeq(hs)
      && r.value.size == p.size
      && r.value.capacity == p.capacity
    ensures r.Success? && SanityCheck(p) ==> SanityCheck(r.value)
    decreases |hs|
  {
    if hs == [] then
      assert p.live - Indices(hs) == p.live;
      Success(p)
    else
      var n := |hs| - 1;
      var pre, h := hs[..n], hs[n];
      assert hs == pre + [h];
      IndexSeqSnoc(pre, h);
      assert IndexSeq(hs)[..n] == IndexSeq(pre);
      match FreeMany(p, pre)
      case Failure(err) => Failure(err)
      case Success(q) =>
        assert (p.live - Indices(pre)) - {h.index} == p.live - Indices(hs);
        Free(q, h)
  }

  lemma {:induction false} SetOfConcat(a: seq<int>, b: seq<int>)
    ensures SetOf(a + b) == SetOf(a) + SetOf(b)
    ensures NoDup(a + b) <==> NoDup(a) && NoDup(b) && SetOf(a) !! SetOf(b)
  {
    if b != [] {
      var n := |b| - 1;
      assert (a + b)[..|a| + n] == a + b[..n];
      SetOfConcat(a, b[..n]);
    } else {
      assert a + b == a;
    }
  }

  lemma IndexSeqConcat(hs: seq<Instance>, gs: seq<Instance>)
    ensures IndexSeq(hs + gs) == IndexSeq(hs) + IndexSeq(gs)
    ensures Indices(hs + gs) == Indices(hs) + Indices(gs)
    ensures Distinct(hs + gs) <==> Distinct(hs) && Distinct(gs) && Indices(hs) !! Indices(gs)
  {
    assert IndexSeq(hs + gs) == IndexSeq(hs) + IndexSeq(gs);
    SetOfConcat(IndexSeq(hs), IndexSeq(gs));
  }
}

=== FILE: pipeline_tests.dfy ===
/** The two pipeline tests, stated as lemmas over the models of the instance
    buffer and the instance pool: every object uploaded to a 12-instance
    buffer reads back intact, and the allocate/free scenario keeps the pool
    consistent at every check. */
module PipelineTests {
  import opened Wrappers
  import opened InstanceDataBuffer
  import InstancePool

  /** `Vector4` is four floats; `BRGMatrix` is three `float4` rows. */
  const Vector4Bytes: nat := 16
  const BRGMatrixBytes: nat := 48

  /** Positions of the eight test properties in the schema. */
  const InternalId0: nat := 0
  const BaseColor: nat := 1
  const TestMatrix: nat := 2
  const TestMatrixInv: nat := 3
  const InternalId1: nat := 4
  const InternalId2: nat := 5
  const TestMatrix2: nat := 6
  const VecOffset: nat := 7

  predicate DistinctIds(ids: seq<int>) {
    forall j, k :: 0 <= j < k < |ids| ==> ids[j] != ids[k]
  }

  /** The test schema, given the engine's ids for the eight property names
      (distinct names have distinct ids). */
  function TestSchema(ids: seq<int>): (ds: seq<PropertyDesc>)
    requires |ids| == 8
    ensures |ds| == 8
    ensures forall k :: 0 <= k < 8 ==> ds[k].id == ids[k]
    ensures VectorSized(ds)
    ensures DistinctIds(ids) ==> IdsDistinct(ds)
  {
    [ PropertyDesc(ids[InternalId0], Vector4Bytes, false, false),
      PropertyDesc(ids[BaseColor], Vector4Bytes, true, true),
      PropertyDesc(ids[TestMatrix], BRGMatrixBytes, true, true),
      PropertyDesc(ids[TestMatrixInv], BRGMatrixBytes, true, true),
      PropertyDesc(ids[InternalId1], Vector4Bytes, false, true),
      PropertyDesc(ids[InternalId2], Vector4Bytes, false, true),
      PropertyDesc(ids[TestMatrix2], BRGMatrixBytes, true, true),
      PropertyDesc(ids[VecOffset], Vector4Bytes, true, true) ]
  }

  function ConstructTestInstanceBuffer(ids: seq<int>, instanceCount: nat): (b: Buffer)
    requires |ids| == 8 && DistinctIds(ids)
    ensures WellFormed(b) && b.descriptions == TestSchema(ids) && b.instanceCount == instanceCount
  {
    Build(TestSchema(ids), instanceCount).value
  }

  /** With 12 instances the shared and per-instance properties pack to these
      addresses. That the slots do not overlap holds for every well-formed
      buffer (`ComponentsDisjoint`). */
  lemma TestLayout(ids: seq<int>)
    requires |ids| == 8 && DistinctIds(ids)
    ensures
      var b := ConstructTestInstanceBuffer(ids, 12);
      && b.componentAddress == [0, 16, 208, 784, 1360, 1376, 1392, 1968]
      && b.byteSize == 2160
  {
    var ds := TestSchema(ids);
    var b := ConstructTestInstanceBuffer(ids, 12);
    assert ds[..0] == [];
    PackedSizeStep(ds, 12, 0);
    PackedSizeStep(ds, 12, 1);
    PackedSizeStep(ds, 12, 2);
    PackedSizeStep(ds, 12, 3);
    PackedSizeStep(ds, 12, 4);
    PackedSizeStep(ds, 12, 5);
    PackedSizeStep(ds, 12, 6);
    PackedSizeStep(ds, 12, 7);
    assert ds[..8] == ds;
  }

  datatype TestObject = TestObject(color: seq<Byte>, matrix: seq<Byte>, matrixInv: seq<Byte>)

  predicate WellSized(o: TestObject) {
    |o.color| == Vector4Bytes && |o.matrix| == BRGMatrixBytes && |o.matrixInv| == BRGMatrixBytes
  }

  datatype TestObjectProperties = TestObjectProperties(baseColorIndex: int, matrixIndex: int, matrixInvIndex: int)

  function PropertiesOf(b: Buffer, ids: seq<int>): (props: TestObjectProperties)
    requires |ids| == 8 && DistinctIds(ids) && b.descriptions == TestSchema(ids)
    ensures props == TestObjectProperties(BaseColor, TestMatrix, TestMatrixInv)
  {
    var r := TestObjectProperties(GetPropertyIndex(b.descriptions, ids[BaseColor]),
                                  GetPropertyIndex(b.descriptions, ids[TestMatrix]),
                                  GetPropertyIndex(b.descriptions, ids[TestMatrixInv]));
    FindsOwnIndex(b.descriptions, BaseColor);
    FindsOwnIndex(b.descriptions, TestMatrix);
    FindsOwnIndex(b.descriptions, TestMatrixInv);
    r
  }

  lemma FindsOwnIndex(ds: seq<PropertyDesc>, p: nat)
    requires IdsDistinct(ds) && p < |ds|
    ensures GetPropertyIndex(ds, ds[p].id) == p
  {
    var q := GetPropertyIndex(ds, ds[p].id);
    assert q != -1;
  }

  /** Whether property index `p` exists and holds values of `len` bytes. */
  predicate Fits(b: Buffer, p: int, len: nat) {
    0 <= p < |b.descriptions| && b.descriptions[p].byteSize == len
  }

  /** The three writes of one object for one instance. */
  function Upload(o: TestObject, props: TestObjectProperties, u: Uploader, instanceId: int): (r: Result<Uploader, UploadError>)
    ensures r.Success? <==>
      && 0 <= instanceId < u.buffer.instanceCount
      && Fits(u.buffer, props.baseColorIndex, |o.color|)
      && Fits(u.buffer, props.matrixIndex, |o.matrix|)
      && Fits(u.buffer, props.matrixInvIndex, |o.matrixInv|)
    ensures r.Success? ==> r.value.buffer == u.buffer
    ensures r.Success? ==>
      r.value.pending == u.pending + [Write(instanceId, props.baseColorIndex, o.color),
                                      Write(instanceId, props.matrixIndex, o.matrix),
                                      Write(instanceId, props.matrixInvIndex, o.matrixInv)]
    ensures r.Success? && props == TestObjectProperties(BaseColor, TestMatrix, TestMatrixInv) ==>
      r.value.pending == u.pending + ObjectWrites(o, instanceId)
    ensures Valid(u) && r.Success? ==> Valid(r.value)
  {
    var h :- AllocateInstance(u, instanceId);
    var u1 :- WriteParameter(u, h, props.baseColorIndex, o.color);
    var u2 :- WriteParameter(u1, h, props.matrixIndex, o.matrix);
    var u3 :- WriteParameter(u2, h, props.matrixInvIndex, o.matrixInv);
    Success(u3)
  }

  function ObjectWrites(o: TestObject, i: nat): seq<Write> {
    [Write(i, BaseColor, o.color), Write(i, TestMatrix, o.matrix), Write(i, TestMatrixInv, o.matrixInv)]
  }

  /** Reads the three properties of one instance back. */
  function Download(b: Buffer, data: seq<Byte>, ids: seq<int>, instanceId: int): (r: Result<TestObject, LoadError>)
    requires |b.componentAddress| == |b.descriptions| && |ids| == 8
    ensures r.Success? ==> WellSized(r.value)
  {
    var color :- LoadData(b, data, instanceId, ids[BaseColor], Vector4Bytes);
    var matrix :- LoadData(b, data, instanceId, ids[TestMatrix], BRGMatrixBytes);
    var matrixInv :- LoadData(b, data, instanceId, ids[TestMatrixInv], BRGMatrixBytes);
    Success(TestObject(color, matrix, matrixInv))
  }

  /** One placement of the test: an instance id and the object uploaded to it. */
  datatype Placement = Placement(instance: nat, obj: TestObject)

  /** Uploads every placement, in order. */
  function UploadAll(props: TestObjectProperties, u: Uploader, ps: seq<Placement>): (r: Result<Uploader, UploadError>)
    ensures r.Success? ==> r.value.buffer == u.buffer
    ensures Valid(u) && r.Success? ==> Valid(r.value)
  {
    if ps == [] then Success(u)
    else
      var u1 :- UploadAll(props, u, ps[..|ps| - 1]);
      Upload(ps[|ps| - 1].obj, props, u1, ps[|ps| - 1].instance)
  }

  function AllWrites(ps: seq<Placement>): seq<Write> {
    if ps == [] then []
    else AllWrites(ps[..|ps| - 1]) + ObjectWrites(ps[|ps| - 1].obj, ps[|ps| - 1].instance)
  }

  /** Placements the test can make: well-sized objects, instance ids inside
      the buffer, no instance used twice. */
  predicate GoodPlacements(ps: seq<Placement>, instanceCount: nat) {
    && (forall k :: 0 <= k < |ps| ==> WellSized(ps[k].obj) && ps[k].instance < instanceCount)
    && (forall j, k :: 0 <= j < k < |ps| ==> ps[j].instance != ps[k].instance)
  }

  lemma {:induction false} UploadAllQueues(ids: seq<int>, b: Buffer, ps: seq<Placement>)
    requires |ids| == 8 && DistinctIds(ids) && WellFormed(b) && b.descriptions == TestSchema(ids)
    requires GoodPlacements(ps, b.instanceCount)
    ensures
      var r := UploadAll(TestObjectProperties(BaseColor, TestMatrix, TestMatrixInv), NewUploader(b), ps);
      && r.Success?
      && r.value == Uploader(b, AllWrites(ps))
      && Valid(r.value)
  {
    if ps != [] {
      var pre := ps[..|ps| - 1];
      assert GoodPlacements(pre, b.instanceCount);
      UploadAllQueues(ids, b, pre);
    }
  }

  /** The last write to property `p` of instance `i`: the uploaded object's
      value for the instance it was placed on. */
  function FieldOf(o: TestObject, p: nat): seq<Byte> {
    if p == BaseColor then o.color else if p == TestMatrix then o.matrix else o.matrixInv
  }

  lemma LastOfThree(b: Buffer, ws: seq<Write>, o: TestObject, j: nat, p: nat, i: nat, d: seq<Byte>)
    requires p < |b.descriptions|
    ensures LastWriteOr(b, ws + ObjectWrites(o, j), p, i, d) ==
      if SameSlot(b, p, i, TestMatrixInv, j) then o.matrixInv
      else if SameSlot(b, p, i, TestMatrix, j) then o.matrix
      else if SameSlot(b, p, i, BaseColor, j) then o.color
      else LastWriteOr(b, ws, p, i, d)
  {
    var w3 := ws + ObjectWrites(o, j);
    var w2 := ws + [Write(j, BaseColor, o.color), Write(j, TestMatrix, o.matrix)];
    var w1 := ws + [Write(j, BaseColor, o.color)];
    assert w3[..|w3| - 1] == w2 && w2[..|w2| - 1] == w1 && w1[..|w1| - 1] == ws;
    assert LastWriteOr(b, w3, p, i, d) ==
      if SameSlot(b, p, i, TestMatrixInv, j) then o.matrixInv else LastWriteOr(b, w2, p, i, d);
    assert LastWriteOr(b, w2, p, i, d) ==
      if SameSlot(b, p, i, TestMatrix, j) then o.matrix else LastWriteOr(b, w1, p, i, d);
    assert LastWriteOr(b, w1, p, i, d) ==
      if SameSlot(b, p, i, BaseColor, j) then o.color else LastWriteOr(b, ws, p, i, d);
  }

  /** Each placed object is what the last write to each of its three
      properties holds. */
  lemma {:induction false} LastWriteIsPlacedObject(ids: seq<int>, b: Buffer, ps: seq<Placement>, k: nat, p: nat, d: seq<Byte>)
    requires |ids| == 8 && b.descriptions == TestSchema(ids)
    requires GoodPlacements(ps, b.instanceCount) && k < |ps|
    requires p == BaseColor || p == TestMatrix || p == TestMatrixInv
    ensures LastWriteOr(b, AllWrites(ps), p, ps[k].instance, d) == FieldOf(ps[k].obj, p)
  {
    var n := |ps| - 1;
    var pre := ps[..n];
    LastOfThree(b, AllWrites(pre), ps[n].obj, ps[n].instance, p, ps[k].instance, d);
    if k < n {
      assert ps[k].instance != ps[n].instance;
      assert GoodPlacements(pre, b.instanceCount);
      assert pre[k] == ps[k];
      LastWriteIsPlacedObject(ids, b, pre, k, p, d);
    }
  }

  /** Upload every placement, submit once, read back: every placed instance
      returns exactly the object uploaded to it, whatever the buffer held
      before and whatever was placed on its neighbours. */
  lemma {:induction false} RoundTrip(ids: seq<int>, instanceCount: nat, ps: seq<Placement>, m: seq<Byte>, k: nat)
    requires |ids| == 8 && DistinctIds(ids)
    requires GoodPlacements(ps, instanceCount) && k < |ps|
    requires |m| == ConstructTestInstanceBuffer(ids, instanceCount).byteSize
    ensures
      var b := ConstructTestInstanceBuffer(ids, instanceCount);
      var u := UploadAll(PropertiesOf(b, ids), NewUploader(b), ps);
      && u.Success?
      && Download(b, Readback(b, SubmitToGpu(u.value, m).1), ids, ps[k].instance) == Success(ps[k].obj)
  {
    var b := ConstructTestInstanceBuffer(ids, instanceCount);
    UploadAllQueues(ids, b, ps);
    var u := UploadAll(PropertiesOf(b, ids), NewUploader(b), ps).value;
    var m' := SubmitToGpu(u, m).1;
    var i := ps[k].instance;
    assert WellSized(ps[k].obj);
    ReadsField(ids, b, ps, m, k, BaseColor);
    ReadsField(ids, b, ps, m, k, TestMatrix);
    ReadsField(ids, b, ps, m, k, TestMatrixInv);
  }

  lemma {:induction false} ReadsField(ids: seq<int>, b: Buffer, ps: seq<Placement>, m: seq<Byte>, k: nat, p: nat)
    requires |ids| == 8 && DistinctIds(ids) && WellFormed(b) && b.descriptions == TestSchema(ids)
    requires GoodPlacements(ps, b.instanceCount) && k < |ps| && |m| == b.byteSize
    requires p == BaseColor || p == TestMatrix || p == TestMatrixInv
    requires Valid(Uploader(b, AllWrites(ps)))
    ensures
      LoadData(b, Readback(b, SubmitToGpu(Uploader(b, AllWrites(ps)), m).1), ps[k].instance,
               ids[p], b.descriptions[p].byteSize)
      == Success(FieldOf(ps[k].obj, p))
  {
    var u := Uploader(b, AllWrites(ps));
    var m' := SubmitToGpu(u, m).1;
    var i := ps[k].instance;
    var a := Address(b, p, i);
    var sz := b.descriptions[p].byteSize;
    assert m'[a..a + sz] == LastWriteOr(b, u.pending, p, i, m[a..a + sz]);
    LastWriteIsPlacedObject(ids, b, ps, k, p, m[a..a + sz]);
    LoadDataReadsSlot(b, m', i, p);
  }

  /** The big-instance-buffer test: object A on instances 0, 1, 3 and 4,
      object B on 2, 5, 8 and 11 of a 12-instance buffer; after one submit
      each of the eight reads back its own object. */
  lemma TestBigInstanceBuffer(ids: seq<int>, objectA: TestObject, objectB: TestObject, m: seq<Byte>)
    requires |ids| == 8 && DistinctIds(ids) && WellSized(objectA) && WellSized(objectB)
    requires |m| == ConstructTestInstanceBuffer(ids, 12).byteSize
    ensures
      var b := ConstructTestInstanceBuffer(ids, 12);
      var ps := [Placement(0, objectA), Placement(1, objectA), Placement(3, objectA), Placement(4, objectA),
                 Placement(2, objectB), Placement(5, objectB), Placement(8, objectB), Placement(11, objectB)];
      var u := UploadAll(PropertiesOf(b, ids), NewUploader(b), ps);
      && u.Success?
      && (var data := Readback(b, SubmitToGpu(u.value, m).1);
          && Download(b, data, ids, 0) == Success(objectA)
          && Download(b, data, ids, 1) == Success(objectA)
          && Download(b, data, ids, 3) == Success(objectA)
          && Download(b, data, ids, 4) == Success(objectA)
          && Download(b, data, ids, 2) == Success(objectB)
          && Download(b, data, ids, 5) == Success(objectB)
          && Download(b, data, ids, 8) == Success(objectB)
          && Download(b, data, ids, 11) == Success(objectB))
  {
    var ps := [Placement(0, objectA), Placement(1, objectA), Placement(3, objectA), Placement(4, objectA),
               Placement(2, objectB), Placement(5, objectB), Placement(8, objectB), Placement(11, objectB)];
    assert GoodPlacements(ps, 12);
    var b := ConstructTestInstanceBuffer(ids, 12);
    RoundTrip(ids, 12, ps, m, 0);
    var u := UploadAll(PropertiesOf(b, ids), NewUploader(b), ps).value;
    var data := Readback(b, SubmitToGpu(u, m).1);
    assert Download(b, data, ids, 0) == Success(objectA);
    RoundTrip(ids, 12, ps, m, 1);
    assert Download(b, data, ids, 1) == Success(objectA);
    RoundTrip(ids, 12, ps, m, 2);
    assert Download(b, data, ids, 3) == Success(objectA);
    RoundTrip(ids, 12, ps, m, 3);
    assert Download(b, data, ids, 4) == Success(objectA);
    RoundTrip(ids, 12, ps, m, 4);
    assert Download(b, data, ids, 2) == Success(objectB);
    RoundTrip(ids, 12, ps, m, 5);
    assert Download(b, data, ids, 5) == Success(objectB);
    RoundTrip(ids, 12, ps, m, 6);
    assert Download(b, data, ids, 8) == Success(objectB);
    RoundTrip(ids, 12, ps, m, 7);
    assert Download(b, data, ids, 11) == Success(objectB);
  }

  // ---------------------------------------------------------------------
  // The instance-pool test
  // ---------------------------------------------------------------------

  /** The instance-pool test: a pool of five slots; allocate a, b and c;
      free b; allocate b, d and e; free b, e and a; allocate g. Returns the
      slots handed to a, b, c, b again, d, e and g, and the pool at each of
      the five sanity checks. Every step succeeds and the pool is sane at
      every check; b gets its old slot back, the pool is full once a, b, c,
      d and e are live, and g takes the slot freed last (a's). */
  method TestInstancePool(e: InstancePool.Entity) returns (slots: seq<int>, checks: seq<InstancePool.Pool>)
    ensures slots == [0, 1, 2, 1, 3, 4, 0]
    ensures |checks| == 5 && forall k :: 0 <= k < 5 ==> InstancePool.SanityCheck(checks[k])
    ensures |checks[2].live| == checks[2].capacity == 5 && InstancePool.Allocate(checks[2], e).Failure?
    ensures checks[3].free == [1, 4, 0]
  {
    var p1, a, b, c := AllocateFirstThree(e);
    var p2 := FreeOne(p1, b);
    var p3, b2, d, e' := AllocateUntilFull(p2, e);
    var p4 := FreeThree(p3, b2, e', a);
    var p5, g := AllocateFromFreed(p4, e);
    slots := [a, b, c, b2, d, e', g];
    SlotOrder(slots, a, b, c, b2, d, e', g);
    checks := [p1, p2, p3, p4, p5];
    AllHold(checks, p1, p2, p3, p4, p5, InstancePool.SanityCheck);
    FullAndFreed(checks, p1, p2, p3, p4, p5, e);
  }

  /** A fresh pool of five hands out slots 0, 1 and 2 in order. */
  method AllocateFirstThree(e: InstancePool.Entity) returns (p: InstancePool.Pool, a: int, b: int, c: int)
    ensures a == 0 && b == 1 && c == 2
    ensures InstancePool.SanityCheck(p) && p.capacity == 5 && p.size == 3 && p.free == []
    ensures a in p.live && b in p.live
  {
    var p0 := InstancePool.Initialize(5);
    var ra := InstancePool.Allocate(p0, e).value;
    var rb := InstancePool.Allocate(ra.0, e).value;
    var rc := InstancePool.Allocate(rb.0, e).value;
    p, a, b, c := rc.0, ra.1.index, rb.1.index, rc.1.index;
  }

  /** With slot 1 on the free stack and two never-used slots left, three
      allocations reuse slot 1, then take 3 and 4, and leave the pool full. */
  method AllocateUntilFull(p: InstancePool.Pool, e: InstancePool.Entity) returns (q: InstancePool.Pool, b: int, d: int, e': int)
    requires InstancePool.SanityCheck(p) && p.capacity == 5 && p.size == 3 && p.free == [1]
    ensures b == 1 && d == 3 && e' == 4
    ensures InstancePool.SanityCheck(q) && q.free == [] && |q.live| == q.capacity == 5
    ensures InstancePool.Allocate(q, e).Failure?
    ensures forall k :: k in p.live ==> k in q.live
    ensures b in q.live && e' in q.live
  {
    var rb := InstancePool.Allocate(p, e).value;
    var rd := InstancePool.Allocate(rb.0, e).value;
    var re := InstancePool.Allocate(rd.0, e).value;
    q, b, d, e' := re.0, rb.1.index, rd.1.index, re.1.index;
    InstancePool.LiveBound(q);
  }

  /** Freeing slot 1 of the three-slot pool puts it alone on the free stack. */
  method FreeOne(p: InstancePool.Pool, b: int) returns (q: InstancePool.Pool)
    requires InstancePool.SanityCheck(p) && p.capacity == 5 && p.size == 3 && p.free == []
    requires b == 1 && b in p.live
    ensures InstancePool.SanityCheck(q) && q.capacity == 5 && q.size == 3 && q.free == [1]
    ensures q.live == p.live - {b}
  {
    q := InstancePool.Free(p, InstancePool.Instance(b)).value;
    assert q.free == [1];
  }

  /** The next allocation takes the slot freed last. */
  method AllocateFromFreed(p: InstancePool.Pool, e: InstancePool.Entity) returns (q: InstancePool.Pool, g: int)
    requires InstancePool.SanityCheck(p) && p.free == [1, 4, 0]
    ensures g == 0 && InstancePool.SanityCheck(q) && q.free == [1, 4]
    ensures g !in p.live && q.live == p.live[g := e]
  {
    var r := InstancePool.Allocate(p, e).value;
    q, g := r.0, r.1.index;
    assert q.free == [1, 4];
  }

  /** Freeing three distinct live slots pushes them on the free stack in
      that order. */
  method FreeThree(p: InstancePool.Pool, x: int, y: int, z: int) returns (q: InstancePool.Pool)
    requires InstancePool.SanityCheck(p)
    requires x in p.live && y in p.live && z in p.live && x != y && y != z && x != z
    ensures InstancePool.SanityCheck(q)
    ensures q.free == p.free + [x, y, z]
    ensures forall k :: k in q.live <==> k in p.live && k != x && k != y && k != z
    ensures q.size == p.size && q.capacity == p.capacity
  {
    var q1 := InstancePool.Free(p, InstancePool.Instance(x)).value;
    var q2 := InstancePool.Free(q1, InstancePool.Instance(y)).value;
    q := InstancePool.Free(q2, InstancePool.Instance(z)).value;
    PushThree(p.free, q1.free, q2.free, q.free, x, y, z);
    DropThree(p.live, q1.live, q2.live, q.live, x, y, z);
  }

  // The lemmas below only move facts about a few named values into
  // sequence and map displays. Stated inline in the methods above, the same
  // facts make the solver search far longer, so each is kept on its own.

  lemma DropThree(m0: map<int, InstancePool.Entity>, m1: map<int, InstancePool.Entity>,
                  m2: map<int, InstancePool.Entity>, m3: map<int, InstancePool.Entity>, x: int, y: int, z: int)
    requires m1 == m0 - {x} && m2 == m1 - {y} && m3 == m2 - {z}
    ensures forall k :: k in m3 <==> k in m0 && k != x && k != y && k != z
  {
  }

  lemma PushThree(s0: seq<int>, s1: seq<int>, s2: seq<int>, s3: seq<int>, x: int, y: int, z: int)
    requires s1 == s0 + [x] && s2 == s1 + [y] && s3 == s2 + [z]
    ensures s3 == s0 + [x, y, z]
  {
  }

  lemma SlotOrder(s: seq<int>, a: int, b: int, c: int, b2: int, d: int, e: int, g: int)
    requires s == [a, b, c, b2, d, e, g]
    requires a == 0 && b == 1 && c == 2 && b2 == 1 && d == 3 && e == 4 && g == 0
    ensures s == [0, 1, 2, 1, 3, 4, 0]
  {
  }

  lemma AllHold<T>(cs: seq<T>, a: T, b: T, c: T, d: T, f: T, P: T -> bool)
    requires cs == [a, b, c, d, f]
    requires P(a) && P(b) && P(c) && P(d) && P(f)
    ensures |cs| == 5 && forall k :: 0 <= k < 5 ==> P(cs[k])
  {
  }

  lemma FullAndFreed(cs: seq<InstancePool.Pool>, p1: InstancePool.Pool, p2: InstancePool.Pool,
                     p3: InstancePool.Pool, p4: InstancePool.Pool, p5: InstancePool.Pool, e: InstancePool.Entity)
    requires cs == [p1, p2, p3, p4, p5]
    requires |p3.live| == p3.capacity == 5 && InstancePool.Allocate(p3, e).Failure?
    requires p4.free == [1, 4, 0]
    ensures |cs[2].live| == cs[2].capacity == 5 && InstancePool.Allocate(cs[2], e).Failure?
    ensures cs[3].free == [1, 4, 0]
  {
  }
}

=== FILE: visibility_culler.dfy ===
/** The CPU side of the GPU visibility culler: how it sizes its buffers, how
    the active-instance buffer grows, and the fixed sequence of commands one
    culling pass records.

    Graphics buffers are not modelled as memory. A buffer is present or not,
    and every reallocation of the active/visible instance pair bumps a
    generation number, so "no reallocation" reads as "same generation". The
    command buffer is a trace of `Cmd` values. The number of primitives per
    geometry-pool cluster comes from a constants class that is not part of
    this model, so it is a parameter. */
module VisibilityCuller {
  import opened Wrappers

  /** Default byte budget of the visible cluster/index output buffers: 16 MiB. */
  const DefaultVisibleClusterIndexBufferByteSize: nat := 16 * 1024 * 1024

  /** Capacity the active-instance buffer is created with. */
  const InitialActiveInstanceCapacity: nat := 2048

  /** Threads per group of the visible-instance kernel. */
  const InstanceGroupSize: nat := 64

  /** Both counters and both argument buffers hold 4-byte integers. */
  const IntByteSize: nat := 4

  datatype Culler = Culler(
    localToWorldAddress: int,
    worldToLocalAddress: int,
    deferredMaterialAddress: int,
    hasActiveBuffer: bool,
    activeCapacity: nat,
    generation: nat,
    activeCount: nat,
    activeIds: seq<int>,
    clusterOutputCount: nat,
    indexOutputCount: nat)

  /** Bytes the cluster and index outputs of `c` clusters take: one 4-byte
      cluster index per cluster and one 4-byte index per cluster primitive. */
  function OutputBytesOf(c: nat, primitiveCount: nat): nat {
    (c + c * primitiveCount) * IntByteSize
  }

  /** Bytes of output one cluster needs, chosen so that `c` clusters'
      outputs take exactly `c` times that: every cluster pays for its own
      index and for the indices of its primitives. */
  function SizePerCluster(primitiveCount: nat): (s: nat)
    ensures s >= IntByteSize
    ensures forall c: nat :: OutputBytesOf(c, primitiveCount) == c * s
  {
    var s := primitiveCount * 4 + 4;
    assert forall c: nat :: OutputBytesOf(c, primitiveCount) == c * s by {
      forall c: nat
        ensures OutputBytesOf(c, primitiveCount) == c * s
      {
        OutputBytes(c, primitiveCount);
      }
    }
    s
  }

  /** The number of clusters whose output fits in `byteSize` bytes: the
      largest `n` with `n * SizePerCluster(p) <= byteSize`. */
  function ClusterOutputCount(byteSize: nat, primitiveCount: nat): (n: nat)
    ensures n * SizePerCluster(primitiveCount) <= byteSize
    ensures byteSize < n * SizePerCluster(primitiveCount) + SizePerCluster(primitiveCount)
  {
    var d := SizePerCluster(primitiveCount);
    var n := byteSize / d;
    DivBounds(byteSize, d, n);
    n
  }

  lemma DivBounds(a: nat, d: nat, q: nat)
    requires d > 0 && q == a / d
    ensures q * d <= a < q * d + d
  {
    assert a == q * d + a % d;
  }

  lemma OutputBytes(c: nat, primitiveCount: nat)
    ensures OutputBytesOf(c, primitiveCount) == c * (primitiveCount * 4 + 4)
  {
    calc {
      (c + c * primitiveCount) * IntByteSize;
      c * IntByteSize + (c * primitiveCount) * IntByteSize;
      { assert (c * primitiveCount) * 4 == c * (primitiveCount * 4); }
      c * (primitiveCount * 4) + c * 4;
      c * (primitiveCount * 4 + 4);
    }
  }

  /** Grows the active-instance buffer (and the visible-instance buffer with
      it) to hold `length` ids; a buffer that is already there and large
      enough is kept. */
  function ResizeActiveInstanceBuffer(c: Culler, length: nat): (r: Culler)
    ensures (r.generation == c.generation) <==> (c.hasActiveBuffer && length <= c.activeCapacity)
    ensures r.generation == c.generation ==> r == c
    ensures r.hasActiveBuffer && length <= r.activeCapacity
    ensures r.generation != c.generation ==> r.activeCapacity == length
    ensures c.hasActiveBuffer ==> c.activeCapacity <= r.activeCapacity
    ensures r.activeCount == c.activeCount && r.activeIds == c.activeIds
    ensures r.clusterOutputCount == c.clusterOutputCount && r.indexOutputCount == c.indexOutputCount
  {
    if c.hasActiveBuffer && length <= c.activeCapacity then
      c
    else
      c.(hasActiveBuffer := true, activeCapacity := length, generation := c.generation + 1)
  }

  /** Sets up a culler: no active instances, a 2048-entry active buffer, and
      cluster/index output buffers sized from the byte budget. */
  function Initialize(byteSize: nat, primitiveCount: nat,
                      localToWorldAddress: int, worldToLocalAddress: int, deferredMaterialAddress: int): (c: Culler)
    ensures c.activeCount == 0 && c.activeIds == []
    ensures c.hasActiveBuffer && c.activeCapacity == InitialActiveInstanceCapacity
    ensures c.clusterOutputCount * SizePerCluster(primitiveCount) <= byteSize
    ensures byteSize < c.clusterOutputCount * SizePerCluster(primitiveCount) + SizePerCluster(primitiveCount)
    ensures c.indexOutputCount == c.clusterOutputCount * primitiveCount
    ensures (c.clusterOutputCount + c.indexOutputCount) * IntByteSize <= byteSize
    ensures c.deferredMaterialAddress == deferredMaterialAddress
  {
    var empty := Culler(localToWorldAddress, worldToLocalAddress, deferredMaterialAddress,
                        false, 0, 0, 0, [], 0, 0);
    var sized := ResizeActiveInstanceBuffer(empty, InitialActiveInstanceCapacity);
    var clusters := ClusterOutputCount(byteSize, primitiveCount);
    assert OutputBytesOf(clusters, primitiveCount) == clusters * SizePerCluster(primitiveCount);
    sized.(clusterOutputCount := clusters, indexOutputCount := clusters * primitiveCount)
  }

  /** Uploads the ids of this frame's active instances, growing the buffer
      first when they do not fit. */
  function UpdateActiveInstanceBuffer(c: Culler, instanceIds: seq<int>): (r: Culler)
    ensures r.activeCount == |instanceIds| <= r.activeCapacity
    ensures r.activeIds == instanceIds
    ensures r.hasActiveBuffer
    ensures c.hasActiveBuffer ==> c.activeCapacity <= r.activeCapacity
    ensures (r.generation == c.generation) <==> (c.hasActiveBuffer && |instanceIds| <= c.activeCapacity)
    ensures r.clusterOutputCount == c.clusterOutputCount && r.indexOutputCount == c.indexOutputCount
    ensures r.deferredMaterialAddress == c.deferredMaterialAddress
  {
    ResizeActiveInstanceBuffer(c, |instanceIds|).(activeCount := |instanceIds|, activeIds := instanceIds)
  }

  /** Thread groups for `n` instances at 64 per group, rounded up. */
  function GroupCount(n: nat): (g: nat)
    ensures n <= g * InstanceGroupSize < n + InstanceGroupSize
  {
    var g := (n + 63) / 64;
    DivBounds(n + 63, 64, g);
    g
  }

  // ---------------------------------------------------------------------
  // Culling pass as a command trace
  // ---------------------------------------------------------------------

  datatype Counter = InstanceOutCounter | ClustersOutCounter

  datatype ArgsBuffer = VisibleClustersArgs | VisibleIndicesArgs

  /** The commands one culling pass records. Parameter and buffer bindings
      are folded into the dispatch that consumes them. */
  datatype Cmd =
    | ZeroCounter(counter: Counter)
    | DispatchVisibleInstances(groups: nat, totalInstanceCount: nat, deferredMaterialAddress: int,
                               inputGeneration: nat, outCounter: Counter)
    | DispatchIndirectArgs(maxCounterValue: nat, input: Counter, output: ArgsBuffer)
    | DispatchVisibleClustersIndirect(args: ArgsBuffer, maxOutputClusterOffset: nat,
                                      inputCounter: Counter, outCounter: Counter)

  /** The commands of one culling pass; `false` and no commands when there
      are no active instances. */
  function GPUCull(c: Culler): (r: (bool, seq<Cmd>))
    ensures !r.0 <==> c.activeCount == 0
    ensures !r.0 ==> r.1 == []
    ensures r.0 ==> |r.1| == 6
    ensures r.0 ==> r.1[1].DispatchVisibleInstances? && r.1[1].groups * InstanceGroupSize >= c.activeCount
  {
    if c.activeCount == 0 then
      (false, [])
    else
      (true, [
        ZeroCounter(InstanceOutCounter),
        DispatchVisibleInstances(GroupCount(c.activeCount), c.activeCount, c.deferredMaterialAddress,
                                 c.generation, InstanceOutCounter),
        DispatchIndirectArgs(c.activeCount, InstanceOutCounter, VisibleClustersArgs),
        ZeroCounter(ClustersOutCounter),
        DispatchVisibleClustersIndirect(VisibleClustersArgs, c.clusterOutputCount,
                                        InstanceOutCounter, ClustersOutCounter),
        DispatchIndirectArgs(c.clusterOutputCount, ClustersOutCounter, VisibleIndicesArgs)
      ])
  }

  // ---------------------------------------------------------------------
  // What the GPU sees: a reference automaton for the trace
  // ---------------------------------------------------------------------

  /** A counter holds whatever an earlier frame left (`Stale`), zero, or the
      count of the kernel that wrote it since it was zeroed, which is at most
      `atMost`. */
  datatype CounterState = Stale | Zeroed | Counted(atMost: nat)

  /** An argument buffer is stale, or holds arguments clamped to `max`. */
  datatype ArgsState = StaleArgs | ArgsReady(max: nat)

  /** Which active-instance ids the instance kernel read this frame: how many,
      and from which allocation of the active buffer. */
  datatype InputState = NoInput | ReadIds(count: nat, generation: nat)

  datatype Gpu = Gpu(instanceCounter: CounterState, clustersCounter: CounterState,
                     clustersArgs: ArgsState, indicesArgs: ArgsState, instanceInput: InputState)

  function CounterOf(g: Gpu, k: Counter): CounterState {
    match k
    case InstanceOutCounter => g.instanceCounter
    case ClustersOutCounter => g.clustersCounter
  }

  function SetCounter(g: Gpu, k: Counter, v: CounterState): (r: Gpu)
    ensures CounterOf(r, k) == v
  {
    match k
    case InstanceOutCounter => g.(instanceCounter := v)
    case ClustersOutCounter => g.(clustersCounter := v)
  }

  function ArgsOf(g: Gpu, a: ArgsBuffer): ArgsState {
    match a
    case VisibleClustersArgs => g.clustersArgs
    case VisibleIndicesArgs => g.indicesArgs
  }

  function SetArgs(g: Gpu, a: ArgsBuffer, v: ArgsState): (r: Gpu)
    ensures ArgsOf(r, a) == v
  {
    match a
    case VisibleClustersArgs => g.(clustersArgs := v)
    case VisibleIndicesArgs => g.(indicesArgs := v)
  }

  /** One command on the GPU, or `None` when it would read a counter or an
      argument buffer that this frame has not prepared: a kernel that
      appends through a counter needs it zeroed, a kernel that reads a count
      needs it counted, an indirect dispatch needs its arguments ready.
      The kernels' own code is not part of this model; each is taken at the
      bound its parameters give it: the instance kernel reads
      `totalInstanceCount` ids of the bound buffer and appends at most one
      entry per id, the cluster kernel appends no entry past
      `maxOutputClusterOffset`, and the arguments kernel clamps the count it
      reads to `maxCounterValue`. */
  function Step(g: Gpu, cmd: Cmd): Option<Gpu> {
    match cmd
    case ZeroCounter(k) => Some(SetCounter(g, k, Zeroed))
    case DispatchVisibleInstances(_, total, _, generation, out) =>
      if CounterOf(g, out) == Zeroed
      then Some(SetCounter(g, out, Counted(total)).(instanceInput := ReadIds(total, generation)))
      else None
    case DispatchIndirectArgs(max, input, output) =>
      if CounterOf(g, input).Counted?
      then Some(SetArgs(g, output, ArgsReady(Min(CounterOf(g, input).atMost, max))))
      else None
    case DispatchVisibleClustersIndirect(args, maxOffset, input, out) =>
      if ArgsOf(g, args).ArgsReady? && CounterOf(g, input).Counted? && CounterOf(g, out) == Zeroed
      then Some(SetCounter(g, out, Counted(maxOffset)))
      else None
  }

  function Min(a: nat, b: nat): nat {
    if a <= b then a else b
  }

  function Run(g: Gpu, trace: seq<Cmd>): Option<Gpu>
    decreases |trace|
  {
    if trace == [] then Some(g)
    else match Step(g, trace[0])
      case None => None
      case Some(g1) => Run(g1, trace[1..])
  }

  /** Whatever the previous frame left in the counters and argument
      buffers, a culling pass never reads a stale value. The instance kernel
      reads exactly this frame's active ids from the current allocation of
      the active buffer; the visible instances number at most the active
      count and the visible clusters at most the cluster capacity; the
      cluster dispatch arguments are clamped to the active count and the
      index dispatch arguments to the cluster capacity. */
  lemma CullTraceIsWellOrdered(c: Culler, g: Gpu)
    requires c.activeCount > 0
    ensures Run(g, GPUCull(c).1).Some?
    ensures Run(g, GPUCull(c).1).value.instanceInput == ReadIds(c.activeCount, c.generation)
    ensures Run(g, GPUCull(c).1).value.instanceCounter == Counted(c.activeCount)
    ensures Run(g, GPUCull(c).1).value.clustersCounter == Counted(c.clusterOutputCount)
    ensures Run(g, GPUCull(c).1).value.clustersArgs == ArgsReady(c.activeCount)
    ensures Run(g, GPUCull(c).1).value.indicesArgs == ArgsReady(c.clusterOutputCount)
  {
    var t := GPUCull(c).1;
    var g1 := g.(instanceCounter := Zeroed);
    var g2 := g1.(instanceCounter := Counted(c.activeCount), instanceInput := ReadIds(c.activeCount, c.generation));
    var g3 := g2.(clustersArgs := ArgsReady(c.activeCount));
    var g4 := g3.(clustersCounter := Zeroed);
    var g5 := g4.(clustersCounter := Counted(c.clusterOutputCount));
    var g6 := g5.(indicesArgs := ArgsReady(c.clusterOutputCount));
    assert Run(g6, t[6..]) == Some(g6);
    assert Run(g5, t[5..]) == Run(g6, t[6..]);
    assert Run(g4, t[4..]) == Run(g5, t[5..]);
    assert Run(g3, t[3..]) == Run(g4, t[4..]);
    assert Run(g2, t[2..]) == Run(g3, t[3..]);
    assert Run(g1, t[1..]) == Run(g2, t[2..]);
    assert Run(g, t) == Run(g1, t[1..]);
  }

  /** The first zeroing is needed: without it, a counter left over from the
      previous frame stops the instance kernel. */
  lemma InstanceCounterMustBeZeroed(c: Culler, g: Gpu)
    requires c.activeCount > 0 && g.instanceCounter != Zeroed
    ensures Run(g, GPUCull(c).1[1..]) == None
  {
  }

  /** The second zeroing is needed too: the cluster kernel appends through
      its own counter, which the instance half of the pass never resets. */
  lemma ClustersCounterMustBeZeroed(c: Culler, g: Gpu)
    requires c.activeCount > 0 && g.clustersCounter.Counted?
    ensures Run(g, GPUCull(c).1[..3] + GPUCull(c).1[4..]) == None
  {
    var t := GPUCull(c).1;
    var u := t[..3] + t[4..];
    var g1 := g.(instanceCounter := Zeroed);
    var g2 := g1.(instanceCounter := Counted(c.activeCount), instanceInput := ReadIds(c.activeCount, c.generation));
    var g3 := g2.(clustersArgs := ArgsReady(c.activeCount));
    assert u[3] == t[4];
    assert Run(g3, u[3..]) == None;
    assert Run(g2, u[2..]) == Run(g3, u[3..]);
    assert Run(g1, u[1..]) == Run(g2, u[2..]);
    assert Run(g, u) == Run(g1, u[1..]);
  }

  // ---------------------------------------------------------------------
  // The active-instance capacity over many frames
  // ---------------------------------------------------------------------

  /** The largest length among `frames`, at least `floor`. */
  function MaxLength(floor: nat, frames: seq<seq<int>>): (m: nat)
    ensures floor <= m
    ensures forall k :: 0 <= k < |frames| ==> |frames[k]| <= m
  {
    if frames == [] then floor
    else
      var m := MaxLength(floor, frames[..|frames| - 1]);
      if |frames[|frames| - 1]| <= m then m else |frames[|frames| - 1]|
  }

  /** One update per frame, in order. */
  function UpdateAll(c: Culler, frames: seq<seq<int>>): Culler {
    if frames == [] then c
    else UpdateActiveInstanceBuffer(UpdateAll(c, frames[..|frames| - 1]), frames[|frames| - 1])
  }

  /** The capacity only grows: after any sequence of updates it is exactly
      the largest of the starting capacity and every frame's instance count. */
  lemma {:induction false} CapacityIsRunningMaximum(c: Culler, frames: seq<seq<int>>)
    requires c.hasActiveBuffer
    ensures UpdateAll(c, frames).activeCapacity == MaxLength(c.activeCapacity, frames)
    ensures UpdateAll(c, frames).hasActiveBuffer
  {
    if frames != [] {
      CapacityIsRunningMaximum(c, frames[..|frames| - 1]);
    }
  }

  /** After `Initialize`, a frame of at most 2048 instances never reallocates. */
  lemma SmallFramesKeepInitialBuffer(byteSize: nat, primitiveCount: nat, a: int, b: int, d: int, ids: seq<int>)
    requires |ids| <= InitialActiveInstanceCapacity
    ensures
      var c := Initialize(byteSize, primitiveCount, a, b, d);
      UpdateActiveInstanceBuffer(c, ids).generation == c.generation
  {
  }

  /** A culler just initialised has nothing to cull. */
  lemma InitializedCullerRecordsNothing(byteSize: nat, primitiveCount: nat, a: int, b: int, d: int)
    ensures GPUCull(Initialize(byteSize, primitiveCount, a, b, d)) == (false, [])
  {
  }

  /** Updates replace the active ids and never touch the output sizing. */
  lemma {:induction false} UpdateAllKeepsSizing(c: Culler, frames: seq<seq<int>>)
    ensures UpdateAll(c, frames).clusterOutputCount == c.clusterOutputCount
    ensures UpdateAll(c, frames).indexOutputCount == c.indexOutputCount
    ensures frames != [] ==> UpdateAll(c, frames).activeIds == frames[|frames| - 1]
    ensures frames != [] ==> UpdateAll(c, frames).activeCount == |frames[|frames| - 1]|
  {
    if frames != [] {
      UpdateAllKeepsSizing(c, frames[..|frames| - 1]);
    }
  }

  /** However many frames were uploaded since `Initialize`, a culling pass
      over the last non-empty frame reads exactly that frame's ids, and the
      clusters it can append fit the byte budget the output buffers were
      sized from. */
  lemma CullStaysWithinBudget(byteSize: nat, primitiveCount: nat, a: int, b: int, d: int,
                              frames: seq<seq<int>>, g: Gpu)
    requires frames != [] && |frames[|frames| - 1]| > 0
    ensures
      var c := UpdateAll(Initialize(byteSize, primitiveCount, a, b, d), frames);
      var r := Run(g, GPUCull(c).1);
      && r.Some?
      && r.value.instanceInput == ReadIds(|frames[|frames| - 1]|, c.generation)
      && r.value.clustersCounter.Counted?
      && r.value.clustersCounter.atMost * SizePerCluster(primitiveCount) <= byteSize
  {
    var c0 := Initialize(byteSize, primitiveCount, a, b, d);
    var c := UpdateAll(c0, frames);
    UpdateAllKeepsSizing(c0, frames);
    CullTraceIsWellOrdered(c, g);
  }
}

=== FILE: wrappers.dfy ===
/** Failure-carrying results shared by every module of the model. An
    exception thrown by the C# code becomes a `Failure` carrying the reason. */
module Wrappers {

  datatype Option<+T> = None | Some(value: T)

  datatype Result<+T, +E> = Success(value: T) | Failure(error: E) {
    predicate IsFailure() {
      Failure?
    }

    function PropagateFailure<U>(): Result<U, E>
      requires Failure?
    {
      Failure(error)
    }

    function Extract(): T
      requires Success?
    {
      value
    }
  }
}
